=== FILE: README.md ===
# klayout-plugin-utils: a verified model of the pure core

This project models four pieces of pure logic from the `klayout_plugin_utils`
Python package. The package contains helpers for KLayout plugins.

- **Layer-list strings** (`LayerListString`, `LayerListLemmas`) model
  `LayerList.parse_layer_list_string` and `is_valid_layer_list_string`. A layer
  list looks like `"metal1 (1/0), via1 (2/0) 1/0 met3"`. The scanner walks the
  text position by position and tries one anchored regular expression at each
  position. The expression has three ordered alternatives: a named or unnamed
  parenthesised `(layer/datatype)` pair, a bare `layer/datatype` pair, and a bare
  name. Spaces and commas between tokens are skipped. Any other character that
  starts no token is reported as an "Unexpected token" error at its column. If
  any error is reported, the result carries only the errors.
- **Dataclass decoding** (`DataclassDict`) models `dataclass_from_dict`. It is
  a decoder driven by a `Schema` of unions, lists, dataclass records, paths and
  primitives. It checks JSON-like data and turns it into objects, or reports
  why the data does not fit.
- **Suffix stripping** (`PathHelpers`) models `strip_all_suffixes`. It removes
  the longest allowed suffix (such as `.gds.gz`) from the file name of a path.
  If no allowed suffix matches, it returns the stem.
- **Selection filters** (`SelectionFilter`) model the `SelectionFilterOptions`
  `IntFlag`. This covers the flags, the tests that ask which objects a
  combination selects, the table of selection-menu entries, and `from_ui`. The
  `from_ui` fold collects the flags whose menu entries are checked.

`Base` holds the `Option` and `Result` types the modules share.

## Model

| member | source | states |
|---|---|---|
| LayerListString.NatToDecimal | python/klayout_plugin_utils/layer_list_string.py:92 | the column in an error message is a decimal numeral whose value is the column |
| LayerListString.NameAlternative | python/klayout_plugin_utils/layer_list_string.py:80-81 | the bare-name alternative fails exactly at the end of the input or where no name can start |
| LayerListString.ParenAlternative | python/klayout_plugin_utils/layer_list_string.py:67-73 | alternative (a) matches only where the text reads as an optional name, blanks, `(`, blanks, the layer numeral, blanks, `/`, blanks, the datatype numeral, blanks, `)`; each group holds the text at its own place |
| LayerListString.BareAlternative | python/klayout_plugin_utils/layer_list_string.py:75-77 | alternative (b) matches only where the text reads as the layer numeral, blanks, `/`, blanks, the datatype numeral, with the datatype numeral taken whole |
| LayerListString.MatchAt | python/klayout_plugin_utils/layer_list_string.py:66-86 | a match is the text of one of the three alternatives, every group the text at its place and blanks allowed between a pair's parts; when nothing matches inside the input, no name starts there |
| LayerListString.MatchAlphabetOnly | python/klayout_plugin_utils/layer_list_string.py:66-82 | a match never consumes a character outside the pattern's alphabet (letters, digits, `_`, whitespace, `(`, `/`, `)`) |
| LayerListString.ScanFrom | python/klayout_plugin_utils/layer_list_string.py:84-114 | every step of the loop moves `pos` forward, so the loop ends, and it collects at most one layer or error per character |
| LayerListString.Parse | python/klayout_plugin_utils/layer_list_string.py:116-119 | there are no errors exactly when the result holds a parsed layer list; when there are errors, `result` is the empty default and not a layer list |
| LayerListString.ParseErrorsAreUnexpected | python/klayout_plugin_utils/layer_list_string.py:87-95 | the errors appear in strictly ascending column order; each one is at a non-separator character where no token starts, and its message names that column |
| LayerListString.IsValidLayerListString | python/klayout_plugin_utils/layer_list_string.py:121-124 | a string is valid exactly when parsing it yields a layer list with no errors |
| LayerListString.ParseLayerListString | python/klayout_plugin_utils/layer_list_string.py:48-119 | the `while` loop computes the same result as the recursive definition of the parse |
| LayerListString.LayerFromGroups | python/klayout_plugin_utils/layer_list_string.py:97-112 | the `if`/`elif` chain builds no layer exactly when none of `layer2`, `layer1`, `name_only` is set; `layer2` gives the numeric layer of the values of `layer2` and `dtype2`; a name-only layer comes only from `name_only` with both numeric groups unset; `layer1` with an empty name gives the unnamed numeric layer of the values of `layer1` and `dtype1`; `layer1` with a non-empty name gives the named numeric layer of that name and the values of `layer1` and `dtype1`, and a named numeric layer arises only this way; with `layer2` and `layer1` unset, a non-empty `name_only` gives the name-only layer of that name |
| LayerListString.ScanStep | python/klayout_plugin_utils/layer_list_string.py:86-114 | one iteration of the loop moves `pos` forward within the input, and what is collected plus what the scan from `pos` yields stays the same |
| LayerListString.AddToken | python/klayout_plugin_utils/layer_list_string.py:97-114 | after a match, the loop body appends exactly the match's layer and no error |
| LayerListString.MatchStep | python/klayout_plugin_utils/layer_list_string.py:97-114 | one scan step over a matched token yields that token's layer, then whatever the scan from the token's end yields |
| LayerListString.UnmatchedStep | python/klayout_plugin_utils/layer_list_string.py:87-95 | one scan step where nothing matches adds no layer; at a blank or comma it adds no error, and at any other character it adds exactly one "Unexpected token at position p" error, p being that index |
| LayerListString.ScanLoop | python/klayout_plugin_utils/layer_list_string.py:84-114 | the `while` loop run from position `start` collects exactly the layers and errors of the scan from `start` |
| LayerListString.EveryMatchSetsOneGroup | python/klayout_plugin_utils/layer_list_string.py:97-112 | every match sets exactly the groups of its own alternative, so the `if`/`elif` chain builds that alternative's layer and the "Invalid token" branch is never taken |
| LayerListLemmas.ParseEmpty | python/klayout_plugin_utils/layer_list_string.py:133-134 | the empty string parses to an empty layer list with no errors |
| LayerListLemmas.ParseOnlyName | python/klayout_plugin_utils/layer_list_string.py:136-137 | `met1` parses to one name-only layer |
| LayerListLemmas.ParseOnlyGdsPair | python/klayout_plugin_utils/layer_list_string.py:139-140 | `(3/10)` parses to one numeric layer with no name |
| LayerListLemmas.ParenPairExactly | python/klayout_plugin_utils/layer_list_string.py:66-73 | the pattern matches a given parenthesised token, named or not, at a position exactly when the text there reads as that token, blanks included |
| LayerListLemmas.BarePairExactly | python/klayout_plugin_utils/layer_list_string.py:75-77 | the pattern matches a given bare pair at a position exactly when the text there reads as that pair, blanks around the slash included |
| LayerListLemmas.NameTokenAt | python/klayout_plugin_utils/layer_list_string.py:79-81 | a name that is not followed by a word character, nor by blanks and a `(`, is matched as a name-only token |
| LayerListLemmas.SoleParenthesisedPair | python/klayout_plugin_utils/layer_list_string.py:66-78 | any text `(L/D)` alone parses to exactly one numeric layer with the values of its two numerals |
| LayerListLemmas.NamedPairIsOneLayer | python/klayout_plugin_utils/layer_list_string.py:66-78 | a name, blanks, then a parenthesised pair match as one named numeric layer that ends after the `)`, not as a name followed by a pair |
| LayerListLemmas.BarePairIsOneLayer | python/klayout_plugin_utils/layer_list_string.py:98-99 | a bare pair is read as one numeric layer with the values of its numerals, and the scan goes on right after the second numeral |
| LayerListLemmas.SeparatorAddsNothing | python/klayout_plugin_utils/layer_list_string.py:87-91 | a space or comma between tokens adds neither a layer nor an error |
| LayerListLemmas.StrayCharacterIsReported | python/klayout_plugin_utils/layer_list_string.py:92-95 | a character outside the token alphabet that is not a comma is always reported at its index, so the string is invalid and the result holds no layers |
| LayerListLemmas.ParseMixed | python/klayout_plugin_utils/layer_list_string.py:142-152 | `metal1 (1/0) via1 (2/0) metal2 (3/0) 1/0 99/42` parses to three named layers and two numeric ones, in the order of the text, with no errors |
| DataclassDict.Decode | python/klayout_plugin_utils/dataclass_dict_helpers.py:25-66 | a successful decode stands for exactly the data it was given |
| DataclassDict.DecodeArms | python/klayout_plugin_utils/dataclass_dict_helpers.py:29-36 | the union loop from arm i fails exactly when every remaining arm fails |
| DataclassDict.DecodeItems | python/klayout_plugin_utils/dataclass_dict_helpers.py:38-40 | the list comprehension decodes each element with the item schema; on failure it reports the first element that fails |
| DataclassDict.DecodeFields | python/klayout_plugin_utils/dataclass_dict_helpers.py:45-55 | the field loop succeeds exactly when every field is present and decodes, and then it has a keyword argument for each field |
| DataclassDict.UnionTakesFirstSuccess | python/klayout_plugin_utils/dataclass_dict_helpers.py:29-35 | a union returns the result of the first arm, in declared order, that decodes the data |
| DataclassDict.UnionFailsOnlyIfAllFail | python/klayout_plugin_utils/dataclass_dict_helpers.py:30-36 | a union fails exactly when every arm fails, and the error carries the last arm's error as its cause |
| DataclassDict.UnionWithPrimitiveArm | python/klayout_plugin_utils/dataclass_dict_helpers.py:65-66 | a primitive arm passes the data through, so a union with one never fails |
| DataclassDict.ListDecodesElementwise | python/klayout_plugin_utils/dataclass_dict_helpers.py:38-40 | a list decodes exactly when every element decodes; the result has the same length, and element i is the decode of element i; otherwise the first failing element's error is reported |
| DataclassDict.RecordSucceedsExactly | python/klayout_plugin_utils/dataclass_dict_helpers.py:42-62 | a record decodes exactly when the data is a dict, every declared field is present and decodes, and there are no other keys; non-dict data is rejected |
| DataclassDict.RecordFirstBadField | python/klayout_plugin_utils/dataclass_dict_helpers.py:47-54 | the first declared field that is missing or fails to decode is the one reported |
| DataclassDict.RecordExtraKeys | python/klayout_plugin_utils/dataclass_dict_helpers.py:57-60 | when all fields decode, the error names exactly the keys that are not declared fields |
| DataclassDict.RecordHoldsDeclaredFields | python/klayout_plugin_utils/dataclass_dict_helpers.py:45-62 | a decoded record holds exactly the declared fields, which are the data's keys, and each is decoded from its own key |
| PathHelpers.FileName | python/klayout_plugin_utils/path_helpers.py:30 | the file name ends the path, holds no separator, and is preceded by a separator when it is not the whole path |
| PathHelpers.Stem | python/klayout_plugin_utils/path_helpers.py:35 | the stem is a prefix of the name; it drops the last extension, or keeps the whole name when no dot starts one |
| PathHelpers.CutSuffix | python/klayout_plugin_utils/path_helpers.py:34 | cutting a non-empty suffix leaves text that the suffix completes to the name; cutting the empty suffix leaves nothing |
| PathHelpers.SortByLengthDescending | python/klayout_plugin_utils/path_helpers.py:31 | the sorted suffixes are a permutation of the allowed ones, longest first |
| PathHelpers.StripAllSuffixes | python/klayout_plugin_utils/path_helpers.py:23-35 | the result is a prefix of the file name and holds no directory separator |
| PathHelpers.FirstEnding | python/klayout_plugin_utils/path_helpers.py:32-33 | the search returns the first suffix in the list that ends the name, none before it does, and it returns nothing only when no suffix in the list ends the name |
| PathHelpers.FirstEndingIsLongest | python/klayout_plugin_utils/path_helpers.py:31-33 | the search finds an allowed suffix that ends the name and is at least as long as any other that does; it finds none only when no allowed suffix ends the name |
| PathHelpers.StripRemovesLongest | python/klayout_plugin_utils/path_helpers.py:31-34 | when allowed suffixes end the file name, the longest is removed, and the result followed by it is the file name |
| PathHelpers.StripFallsBackToStem | python/klayout_plugin_utils/path_helpers.py:35 | with no allowed suffix ending the file name, the result is its stem |
| PathHelpers.EmptySuffixEmptiesName | python/klayout_plugin_utils/path_helpers.py:32-34 | an allowed empty suffix, with no longer match, yields the empty string |
| PathHelpers.StripIgnoresOrder | python/klayout_plugin_utils/path_helpers.py:31-34 | the result depends only on which suffixes are allowed, not on their order or repeats |
| PathHelpers.LayoutGdsGz | python/klayout_plugin_utils/path_helpers.py:24-28 | `layout.gds.gz` has stem `layout.gds` but strips to `layout` when `.gds` and `.gds.gz` are allowed |
| SelectionFilter.ValuesArePowersOfTwo | python/klayout_plugin_utils/selection_filter_options.py:28-38 | the nine `auto()` values are the powers of two 1 to 256, and two of them share a bit only when they are the same flag |
| SelectionFilter.ToBitsInjective | python/klayout_plugin_utils/selection_filter_options.py:28-38 | two flag sets have the same integer exactly when they are equal, and NONE is 0 |
| SelectionFilter.OrIsUnion | python/klayout_plugin_utils/selection_filter_options.py:99 | `|` on flag integers is union of the flag sets |
| SelectionFilter.AndNonZeroIsMeet | python/klayout_plugin_utils/selection_filter_options.py:51 | `&` of two flag integers is non-zero exactly when the sets share a flag |
| SelectionFilter.IncludeInstances | python/klayout_plugin_utils/selection_filter_options.py:40-41 | instances are included exactly when the INSTANCES bit is set |
| SelectionFilter.IncludeShapes | python/klayout_plugin_utils/selection_filter_options.py:43-51 | shapes are included exactly when the bits meet those of POLYGONS, BOXES, PATHS, POINTS and PARTIAL_SHAPES |
| SelectionFilter.IncludeShape | python/klayout_plugin_utils/selection_filter_options.py:53-74 | a shape is included only if it is not an edge, edge pair or null shape and some flag is set |
| SelectionFilter.EachKindNeedsItsFlag | python/klayout_plugin_utils/selection_filter_options.py:54-67 | points, boxes, paths and texts each need their own flag; both polygon kinds need POLYGONS; user objects need PARTIAL_SHAPES |
| SelectionFilter.EdgesNeverIncluded | python/klayout_plugin_utils/selection_filter_options.py:68-74 | edges, edge pairs and null shapes are never included, whatever flags are set |
| SelectionFilter.ShapesMeansSomeNonTextShape | python/klayout_plugin_utils/selection_filter_options.py:43-67 | shapes are included exactly when some non-text shape kind is; TEXTS alone selects texts but not shapes |
| SelectionFilter.QueriesMonotone | python/klayout_plugin_utils/selection_filter_options.py:40-74 | adding flags never turns an answer of any of the three tests from true to false |
| SelectionFilter.NoneSelectsNothing | python/klayout_plugin_utils/selection_filter_options.py:29-74 | NONE includes no instances, no shapes and no shape of any kind |
| SelectionFilter.MenuTableFlags | python/klayout_plugin_utils/selection_filter_options.py:78-88 | the menu table has nine entries, in flag order, one per flag |
| SelectionFilter.OptionByMenuPath | python/klayout_plugin_utils/selection_filter_options.py:76-88 | the map sends every table entry's menu path to its flag and has no other keys |
| SelectionFilter.MenuMapInjective | python/klayout_plugin_utils/selection_filter_options.py:78-88 | distinct menu paths map to distinct flags |
| SelectionFilter.MenuMapCoversFlags | python/klayout_plugin_utils/selection_filter_options.py:78-88 | every flag is the value of some menu path |
| SelectionFilter.FromUi | python/klayout_plugin_utils/selection_filter_options.py:90-101 | the result holds a flag exactly when a checked menu path maps to it, and is NONE exactly when no menu path is checked |
| SelectionFilter.FromUiBits | python/klayout_plugin_utils/selection_filter_options.py:92-101 | the OR-fold over the checked entries sets a flag's bit exactly when that flag's entry is checked, and is 0 exactly when none is |

## Left out

- `LayerList.__str__` (layer_list_string.py:45-46) calls `pya.LayerInfo.to_s`, which is foreign code. The model has no printer, so it states no parse/print round trip and no format/parse idempotence.
- `LayerListString.ParseLayerListString`: layer and datatype numbers are unbounded. Since Python 3.11, `int()` raises `ValueError` on a numeral longer than 4300 digits (`sys.int_info.default_max_str_digits`). The source calls `int()` without a `try` (layer_list_string.py:99, 103, 105), so in Python that exception leaves `parse_layer_list_string` and `is_valid_layer_list_string`. The model reads such a numeral as its number.
- `pya.LayerInfo` is replaced by the `Layer` datatype. Its three cases are a name, a layer/datatype pair, and both.
- `LayerListString.MatchAt`: `\w` and `\d` are ASCII classes here, and `int()` reads only ASCII digits. Python's Unicode-aware classes also accept other letters and digits. `\s` is modelled exactly, as the code points for which `str.isspace` holds.
- The "Invalid token" branch (layer_list_string.py:108-112) is modelled in `AddToken`: it appends the error and the scan moves on to the end of the match. `EveryMatchSetsOneGroup` shows it is never reached, so `ScanFrom` has no case for it.
- Python's type reflection (`get_origin`, `get_args`, `fields`, `get_type_hints`) is replaced by the explicit `Schema` datatype. The exception classes and message texts of `dataclass_from_dict` are replaced by the `DecodeError` datatype, which keeps their causes.
- `DataclassDict.Decode`: Python iterates any iterable in the list branch (a string gives its characters, a dict its keys). Here only list data decodes against a list schema; anything else is `NotIterable`.
- `DataclassDict.Decode`: `Path(data)` keeps the string as given, without `pathlib` normalisation. Data that is not a string gives `NotAPath`, where Python's `Path` raises `TypeError`.
- Side effects of a dataclass's constructor (`cls(**kwargs)`, `__post_init__`) are not modelled. A record is the map of its keyword arguments.
- `PathHelpers.FileName`: a path is a string with `/` as its only separator, taken as written. `pathlib` drops a trailing separator, collapses repeated separators and drops `.` components; the model does none of this. So for `d/layout.gds/` the model's file name is empty and `StripAllSuffixes` with `.gds` allowed returns the empty string, where `Path("d/layout.gds/").name` is `layout.gds` and Python returns `layout`. Separators of other platforms and drive letters are not modelled either.
- `PathHelpers.Stem` follows the rule that a dot which is first or last in the name starts no extension. Python versions since 3.13 changed the treatment of a trailing dot.
- The empty allowed suffix is modelled as the code behaves: it ends every name, and `name[:-0]` is the empty string. It is not excluded by a precondition.
- `pya.Shape` is replaced by the `ShapeKind` enumeration. The `is_*` tests of a real shape are assumed to be mutually exclusive, as they are for KLayout shapes.
- The main window's menu in `from_ui` is replaced by the set of checked menu paths, passed as a parameter.
- `IntFlag` combinations are modelled as sets of flags, and `ToBits` gives their integers. Iteration and member names are used only by the `__main__` block (selection_filter_options.py:105-107), which reads the dialog and prints the list of chosen flags; it is not modelled. `~` and `^` are not used.
- The rest of the package is not part of this model, because it has no pure logic of its own:
  - `editor_options.py` does floating-point angle and grid arithmetic on host configuration.
  - `tech_helpers.py` applies a float threshold to `pya` technology objects.
  - `debugging.py` and `file_system_helpers.py` read the environment, configuration and filesystem.
  - `event_loop.py`, `file_selector_widget.py` and `qt_helpers.py` are Qt plumbing.
  - `object_description.py` formats foreign `pya` objects.
  - `cached_classproperty.py` is Python descriptor machinery.

=== FILE: base.dfy ===
/** Small failure-carrying datatypes shared by the other modules. */
module Base {

  /** A value that may be absent (Python's `None`). */
  datatype Option<+T> = None | Some(value: T)

  /** Either a decoded value or the error a Python `raise` would carry. */
  datatype Result<+R, +E> = Success(value: R) | Failure(error: E)
}

=== FILE: dataclass_dict.dfy ===
/** `dataclass_from_dict`: decoding JSON-like data against a declared type.
    Python's type reflection (`get_origin`, `get_args`, `fields`,
    `get_type_hints`) is replaced by an explicit `Schema`. */
module DataclassDict {
  import opened Base

  /** The type `cls` the data is decoded against. */
  datatype Schema =
    | Union(arms: seq<Schema>)     // `Union[...]`, including `Optional[...]`
    | ListOf(item: Schema)         // `list[T]`
    | Record(fields: seq<Field>)   // a dataclass, fields in declaration order
    | PathT                        // `pathlib.Path`
    | Prim                         // every other type: passed through unchecked

  datatype Field = Field(name: string, schema: Schema)

  /** The data, as `json.load` produces it. */
  datatype Value =
    | VNone
    | VBool(b: bool)
    | VInt(i: int)
    | VStr(s: string)
    | VList(items: seq<Value>)
    | VDict(entries: map<string, Value>)

  /** What `dataclass_from_dict` returns. */
  datatype Obj =
    | Raw(value: Value)                    // the data itself
    | PathObj(path: string)                // `Path(data)`
    | ListObj(elems: seq<Obj>)             // the list comprehension
    | RecordObj(kwargs: map<string, Obj>)  // `cls(**kwargs)`

  /** The `TypeError`s the decoder raises, with their `from` causes. */
  datatype DecodeError =
    | NoArmMatched(last: Option<DecodeError>)
    | NotIterable
    | NotADict
    | NotAPath
    | MissingField(field: string)
    | FieldFailed(field: string, cause: DecodeError)
    | ExtraKeys(keys: set<string>)

  function FieldNames(fields: seq<Field>): set<string>
  {
    set f | f in fields :: f.name
  }

  /** Dataclass field names are distinct. */
  predicate DistinctNames(fields: seq<Field>)
  {
    forall i, j :: 0 <= i < j < |fields| ==> fields[i].name != fields[j].name
  }

  /** The data an object was decoded from. A path keeps the string it was
      given (`pathlib` normalisation is not modelled). */
  function Encode(o: Obj): Value
  {
    match o
    case Raw(v) => v
    case PathObj(p) => VStr(p)
    case ListObj(elems) => VList(seq(|elems|, k requires 0 <= k < |elems| => Encode(elems[k])))
    case RecordObj(kwargs) => VDict(map name | name in kwargs :: Encode(kwargs[name]))
  }

  // ---------------------------------------------------------------------------
  // The decoder

  /** `dataclass_from_dict(cls, data)`. Whatever it returns stands for
      exactly the data it was given. */
  function Decode(sch: Schema, v: Value): (r: Result<Obj, DecodeError>)
    ensures r.Success? ==> Encode(r.value) == v
    decreases sch, 2, 0
  {
    match sch
    case Union(arms) => DecodeArms(sch, 0, v, None)
    case ListOf(item) =>
      if !v.VList? then Failure(NotIterable)
      else (
        match DecodeItems(sch, v.items, 0)
        case Failure(e) => Failure(e)
        case Success(elems) =>
          assert forall k :: 0 <= k < |elems| ==> Encode(elems[k]) == v.items[k];
          Success(ListObj(elems)))
    case Record(fields) =>
      if !v.VDict? then Failure(NotADict)
      else (
        match DecodeFields(sch, v.entries, 0, map[])
        case Failure(e) => Failure(e)
        case Success(kwargs) =>
          var extra := v.entries.Keys - FieldNames(fields);
          if extra != {} then Failure(ExtraKeys(extra))
          else
            assert kwargs.Keys == FieldNames(fields[0..]);
            KwargsAreTheData(fields, v.entries, kwargs);
            Success(RecordObj(kwargs)))
    case PathT => if v.VStr? then Success(PathObj(v.s)) else Failure(NotAPath)
    case Prim => Success(Raw(v))
  }

  /** The `for arg in args` loop of the Union branch from arm `i` on, with
      the error of the arm tried last. */
  function DecodeArms(sch: Schema, i: nat, v: Value, last: Option<DecodeError>): (r: Result<Obj, DecodeError>)
    requires sch.Union? && i <= |sch.arms|
    ensures r.Success? ==> Encode(r.value) == v
    ensures r.Failure? <==> forall k :: i <= k < |sch.arms| ==> Decode(sch.arms[k], v).Failure?
    decreases sch, 1, |sch.arms| - i
  {
    if i == |sch.arms| then Failure(NoArmMatched(last))
    else
      match Decode(sch.arms[i], v)
      case Success(o) => Success(o)
      case Failure(e) => DecodeArms(sch, i + 1, v, Some(e))
  }

  /** The list comprehension from element `i` on; it stops at the first
      element that fails. */
  function DecodeItems(sch: Schema, items: seq<Value>, i: nat): (r: Result<seq<Obj>, DecodeError>)
    requires sch.ListOf? && i <= |items|
    ensures r.Success? ==>
              && |r.value| == |items| - i
              && forall k :: 0 <= k < |r.value| ==> Decode(sch.item, items[i + k]) == Success(r.value[k])
    ensures r.Failure? ==>
              exists k :: i <= k < |items| && Decode(sch.item, items[k]) == Failure(r.error)
                          && forall j :: i <= j < k ==> Decode(sch.item, items[j]).Success?
    decreases sch, 1, |items| - i
  {
    if i == |items| then Success([])
    else
      match Decode(sch.item, items[i])
      case Failure(e) => Failure(e)
      case Success(o) => (
        match DecodeItems(sch, items, i + 1)
        case Failure(e) => Failure(e)
        case Success(rest) => Success([o] + rest))
  }

  /** A field of a dataclass that is present in the data and decodes. */
  predicate FieldDecodes(f: Field, data: map<string, Value>)
  {
    f.name in data && Decode(f.schema, data[f.name]).Success?
  }

  /** The `for f in fields(cls)` loop from field `i` on, filling `kwargs`. */
  function DecodeFields(sch: Schema, data: map<string, Value>, i: nat, kwargs: map<string, Obj>)
    : (r: Result<map<string, Obj>, DecodeError>)
    requires sch.Record? && i <= |sch.fields|
    requires forall name :: name in kwargs ==> name in data && Encode(kwargs[name]) == data[name]
    ensures r.Success? <==> forall j :: i <= j < |sch.fields| ==> FieldDecodes(sch.fields[j], data)
    ensures r.Success? ==> r.value.Keys == kwargs.Keys + FieldNames(sch.fields[i..])
    ensures r.Success? ==> forall name :: name in r.value ==> name in data && Encode(r.value[name]) == data[name]
    decreases sch, 1, |sch.fields| - i
  {
    if i == |sch.fields| then Success(kwargs)
    else
      var f := sch.fields[i];
      if f.name !in data then Failure(MissingField(f.name))
      else
        match Decode(f.schema, data[f.name])
        case Failure(e) => Failure(FieldFailed(f.name, e))
        case Success(o) =>
          FieldNamesStep(sch.fields, i);
          DecodeFields(sch, data, i + 1, kwargs[f.name := o])
  }

  /** Without extra keys, the filled-in `kwargs` stand for the whole dict. */
  lemma KwargsAreTheData(fields: seq<Field>, data: map<string, Value>, kwargs: map<string, Obj>)
    requires kwargs.Keys == FieldNames(fields[0..])
    requires data.Keys - FieldNames(fields) == {}
    requires forall name :: name in kwargs ==> name in data && Encode(kwargs[name]) == data[name]
    ensures Encode(RecordObj(kwargs)) == VDict(data)
  {
    assert fields[0..] == fields;
    forall name | name in data
      ensures name in kwargs
    {
      assert name !in data.Keys - FieldNames(fields);
    }
  }

  lemma FieldNamesStep(fields: seq<Field>, i: nat)
    requires i < |fields|
    ensures FieldNames(fields[i..]) == {fields[i].name} + FieldNames(fields[i + 1..])
  {
    assert fields[i..] == [fields[i]] + fields[i + 1..];
  }

  // ---------------------------------------------------------------------------
  // Union: ordered alternatives

  /** The Union branch returns the first arm, in declared order, that decodes. */
  lemma UnionTakesFirstSuccess(arms: seq<Schema>, v: Value, k: nat)
    requires k < |arms| && Decode(arms[k], v).Success?
    requires forall j :: 0 <= j < k ==> Decode(arms[j], v).Failure?
    ensures Decode(Union(arms), v) == Decode(arms[k], v)
  {
    ArmsReach(Union(arms), 0, v, None, k);
  }

  lemma {:induction false} ArmsReach(sch: Schema, i: nat, v: Value, last: Option<DecodeError>, k: nat)
    requires sch.Union? && i <= k < |sch.arms| && Decode(sch.arms[k], v).Success?
    requires forall j :: i <= j < k ==> Decode(sch.arms[j], v).Failure?
    ensures DecodeArms(sch, i, v, last) == Decode(sch.arms[k], v)
    decreases k - i
  {
    if i < k {
      ArmsReach(sch, i + 1, v, Some(Decode(sch.arms[i], v).error), k);
    }
  }

  /** The Union branch fails exactly when every arm fails, and then reports
      the error of the last arm as its cause. */
  lemma UnionFailsOnlyIfAllFail(arms: seq<Schema>, v: Value)
    ensures Decode(Union(arms), v).Failure? <==> forall k :: 0 <= k < |arms| ==> Decode(arms[k], v).Failure?
    ensures Decode(Union(arms), v).Failure? ==>
              Decode(Union(arms), v).error
              == NoArmMatched(if |arms| == 0 then None else Some(Decode(arms[|arms| - 1], v).error))
  {
    ArmsFail(Union(arms), 0, v, None);
  }

  lemma {:induction false} ArmsFail(sch: Schema, i: nat, v: Value, last: Option<DecodeError>)
    requires sch.Union? && i <= |sch.arms|
    ensures DecodeArms(sch, i, v, last).Failure? ==>
              DecodeArms(sch, i, v, last).error
              == NoArmMatched(if i == |sch.arms| then last else Some(Decode(sch.arms[|sch.arms| - 1], v).error))
    decreases |sch.arms| - i
  {
    if i < |sch.arms| && Decode(sch.arms[i], v).Failure? {
      ArmsFail(sch, i + 1, v, Some(Decode(sch.arms[i], v).error));
    }
  }

  /** A primitive type passes any data through, so a Union with a primitive
      arm (`Optional[...]` has `NoneType`) never fails, and it returns the
      data unchanged unless an earlier arm decodes. */
  lemma UnionWithPrimitiveArm(arms: seq<Schema>, v: Value, k: nat)
    requires k < |arms| && arms[k] == Prim
    ensures Decode(Union(arms), v).Success?
    ensures (forall j :: 0 <= j < k ==> Decode(arms[j], v).Failure?) ==> Decode(Union(arms), v) == Success(Raw(v))
  {
    assert Decode(arms[k], v).Success?;
    if forall j :: 0 <= j < k ==> Decode(arms[j], v).Failure? {
      UnionTakesFirstSuccess(arms, v, k);
    }
  }

  // ---------------------------------------------------------------------------
  // Lists

  /** A list decodes element by element: it succeeds exactly when every
      element does, keeps the length and the order, and otherwise raises
      the error of the first element that fails. Anything but a list is
      rejected. */
  lemma ListDecodesElementwise(item: Schema, items: seq<Value>)
    ensures Decode(ListOf(item), VList(items)).Success?
            <==> forall k :: 0 <= k < |items| ==> Decode(item, items[k]).Success?
    ensures Decode(ListOf(item), VList(items)).Success? ==>
              && Decode(ListOf(item), VList(items)).value.ListObj?
              && |Decode(ListOf(item), VList(items)).value.elems| == |items|
              && forall k :: 0 <= k < |items| ==>
                   Decode(item, items[k]) == Success(Decode(ListOf(item), VList(items)).value.elems[k])
    ensures Decode(ListOf(item), VList(items)).Failure? ==>
              exists k :: 0 <= k < |items|
                          && Decode(item, items[k]) == Failure(Decode(ListOf(item), VList(items)).error)
                          && forall j :: 0 <= j < k ==> Decode(item, items[j]).Success?
    ensures forall w: Value :: !w.VList? ==> Decode(ListOf(item), w) == Failure(NotIterable)
  {
    var sch := ListOf(item);
    var r := DecodeItems(sch, items, 0);
    if r.Success? {
      forall k | 0 <= k < |items|
        ensures Decode(item, items[k]) == Success(r.value[k])
      {
        assert items[0 + k] == items[k];
      }
    }
  }

  // ---------------------------------------------------------------------------
  // Records

  /** A dataclass decodes exactly when the data is a dict, every declared
      field is present and decodes, and no other key is present. */
  lemma RecordSucceedsExactly(fields: seq<Field>, v: Value)
    ensures Decode(Record(fields), v).Success?
            <==> && v.VDict?
                 && (forall j :: 0 <= j < |fields| ==> FieldDecodes(fields[j], v.entries))
                 && v.entries.Keys <= FieldNames(fields)
    ensures !v.VDict? ==> Decode(Record(fields), v) == Failure(NotADict)
  {
    if v.VDict? {
      var r := DecodeFields(Record(fields), v.entries, 0, map[]);
      if r.Success? && v.entries.Keys <= FieldNames(fields) {
        assert v.entries.Keys - FieldNames(fields) == {};
      }
      if v.entries.Keys - FieldNames(fields) == {} {
        forall name | name in v.entries
          ensures name in FieldNames(fields)
        {
          assert name !in v.entries.Keys - FieldNames(fields);
        }
      }
    }
  }

  /** The first declared field that is missing or fails decides the error:
      a missing field, or the field's own failure as the cause. Fields are
      checked before extra keys. */
  lemma RecordFirstBadField(fields: seq<Field>, data: map<string, Value>, i: nat)
    requires i < |fields| && !FieldDecodes(fields[i], data)
    requires forall j :: 0 <= j < i ==> FieldDecodes(fields[j], data)
    ensures Decode(Record(fields), VDict(data))
         == Failure(if fields[i].name !in data then MissingField(fields[i].name)
                    else FieldFailed(fields[i].name, Decode(fields[i].schema, data[fields[i].name]).error))
  {
    FieldsReach(Record(fields), data, 0, map[], i);
  }

  lemma {:induction false} FieldsReach(sch: Schema, data: map<string, Value>, i: nat, kwargs: map<string, Obj>, k: nat)
    requires sch.Record? && i <= k < |sch.fields| && !FieldDecodes(sch.fields[k], data)
    requires forall j :: i <= j < k ==> FieldDecodes(sch.fields[j], data)
    requires forall name :: name in kwargs ==> name in data && Encode(kwargs[name]) == data[name]
    ensures DecodeFields(sch, data, i, kwargs)
         == Failure(if sch.fields[k].name !in data then MissingField(sch.fields[k].name)
                    else FieldFailed(sch.fields[k].name, Decode(sch.fields[k].schema, data[sch.fields[k].name]).error))
    decreases k - i
  {
    if i < k {
      var f := sch.fields[i];
      assert FieldDecodes(f, data);
      FieldsReach(sch, data, i + 1, kwargs[f.name := Decode(f.schema, data[f.name]).value], k);
    }
  }

  /** With every field present and decodable, keys that are not fields are
      reported all together. */
  lemma RecordExtraKeys(fields: seq<Field>, data: map<string, Value>)
    requires forall j :: 0 <= j < |fields| ==> FieldDecodes(fields[j], data)
    requires data.Keys - FieldNames(fields) != {}
    ensures Decode(Record(fields), VDict(data)) == Failure(ExtraKeys(data.Keys - FieldNames(fields)))
  {
    assert DecodeFields(Record(fields), data, 0, map[]).Success?;
  }

  /** A decoded dataclass holds exactly the declared fields, each decoded
      from the value under its own key. */
  lemma RecordHoldsDeclaredFields(fields: seq<Field>, data: map<string, Value>)
    requires DistinctNames(fields)
    requires Decode(Record(fields), VDict(data)).Success?
    ensures Decode(Record(fields), VDict(data)).value.RecordObj?
    ensures Decode(Record(fields), VDict(data)).value.kwargs.Keys == FieldNames(fields) == data.Keys
    ensures forall j :: 0 <= j < |fields| ==>
              fields[j].name in data
              && Decode(fields[j].schema, data[fields[j].name])
                 == Success(Decode(Record(fields), VDict(data)).value.kwargs[fields[j].name])
  {
    RecordSucceedsExactly(fields, VDict(data));
    assert fields[0..] == fields;
    FieldsFill(Record(fields), data, 0, map[]);
  }

  lemma {:induction false} FieldsFill(sch: Schema, data: map<string, Value>, i: nat, kwargs: map<string, Obj>)
    requires sch.Record? && i <= |sch.fields| && DistinctNames(sch.fields)
    requires forall name :: name in kwargs ==> name in data && Encode(kwargs[name]) == data[name]
    requires DecodeFields(sch, data, i, kwargs).Success?
    ensures forall j :: i <= j < |sch.fields| ==>
              Decode(sch.fields[j].schema, data[sch.fields[j].name])
              == Success(DecodeFields(sch, data, i, kwargs).value[sch.fields[j].name])
    decreases |sch.fields| - i
  {
    if i < |sch.fields| {
      var f := sch.fields[i];
      var o := Decode(f.schema, data[f.name]).value;
      FieldsFill(sch, data, i + 1, kwargs[f.name := o]);
      FieldKept(sch, data, i + 1, kwargs[f.name := o], f.name);
    }
  }

  /** A key no later field writes keeps its value. */
  lemma {:induction false} FieldKept(sch: Schema, data: map<string, Value>, i: nat, kwargs: map<string, Obj>, name: string)
    requires sch.Record? && i <= |sch.fields|
    requires forall name :: name in kwargs ==> name in data && Encode(kwargs[name]) == data[name]
    requires DecodeFields(sch, data, i, kwargs).Success?
    requires name in kwargs && forall j :: i <= j < |sch.fields| ==> sch.fields[j].name != name
    ensures DecodeFields(sch, data, i, kwargs).value[name] == kwargs[name]
    decreases |sch.fields| - i
  {
    if i < |sch.fields| {
      var f := sch.fields[i];
      FieldKept(sch, data, i + 1, kwargs[f.name := Decode(f.schema, data[f.name]).value], name);
    }
  }
}

=== FILE: layer_list_lemmas.dfy ===
/** Properties of the layer-list parser. */
module LayerListLemmas {
  import opened Base
  import opened LayerListString

  // ---------------------------------------------------------------------------
  // Which alternative matches: the tokens of the notation

  /** A maximal run of digits ends where the scanner's digit run ends. */
  lemma DigitRunIs(s: string, i: nat, j: nat)
    requires i <= j <= |s| && DigitsBetween(s, i, j) && (j == |s| || !IsDigit(s[j]))
    ensures RunEnd(s, i, Digit) == j
  {
    RunEndIs(s, i, Digit, j);
  }

  /** A maximal run of blanks ends where the scanner's blank run ends. */
  lemma SpaceRunIs(s: string, i: nat, j: nat)
    requires i <= j <= |s| && SpacesBetween(s, i, j) && (j == |s| || !IsSpace(s[j]))
    ensures RunEnd(s, i, Space) == j
  {
    RunEndIs(s, i, Space, j);
  }

  /** Where `\d+ \s* / \s* \d+` lies at `p`, the scanner finds it there. */
  lemma PairFromAt(s: string, p: PairSpan)
    requires PairAt(s, p) && (p.dtypeEnd == |s| || !IsDigit(s[p.dtypeEnd]))
    ensures PairFrom(s, p.layerAt) == Some(p)
  {
    LayerNumeralRun(s, p);
    SpaceRunIs(s, p.layerEnd, p.slash);
    SpaceRunIs(s, p.slash + 1, p.dtypeAt);
    DigitRunIs(s, p.dtypeAt, p.dtypeEnd);
  }

  /** The layer numeral of a pair is a maximal run of digits. */
  lemma LayerNumeralRun(s: string, p: PairSpan)
    requires PairAt(s, p)
    ensures RunEnd(s, p.layerAt, Digit) == p.layerEnd
  {
    assert !IsDigit(s[p.layerEnd]) by {
      if p.layerEnd < p.slash {
        assert IsSpace(s[p.layerEnd]);
      }
    }
    DigitRunIs(s, p.layerAt, p.layerEnd);
  }

  /** `\( \s* L \s* / \s* D \s* \)` with the parenthesis at `open`, the pair at
      `p`, ending at `e`: the scanner finds exactly this. */
  lemma ParenthesisedPairAt(s: string, open: nat, p: PairSpan, e: nat)
    requires ParenthesisedAt(s, open, p, e)
    ensures ParenthesisedPairFrom(s, open) == Some((p, e))
  {
    BlanksAfterParenthesis(s, open, p, e);
    BlanksBeforeParenthesis(s, open, p, e);
    PairFromAt(s, p);
  }

  /** The blanks after `(` stop at the layer numeral. */
  lemma BlanksAfterParenthesis(s: string, open: nat, p: PairSpan, e: nat)
    requires ParenthesisedAt(s, open, p, e)
    ensures RunEnd(s, open + 1, Space) == p.layerAt
  {
    assert !IsSpace(s[p.layerAt]);
    SpaceRunIs(s, open + 1, p.layerAt);
  }

  /** The blanks after the datatype numeral stop at `)`, and the numeral
      is maximal. */
  lemma BlanksBeforeParenthesis(s: string, open: nat, p: PairSpan, e: nat)
    requires ParenthesisedAt(s, open, p, e)
    ensures !IsDigit(s[p.dtypeEnd]) && RunEnd(s, p.dtypeEnd, Space) == e - 1
  {
    assert !IsSpace(s[e - 1]);
    assert !IsDigit(s[p.dtypeEnd]) by {
      if p.dtypeEnd < e - 1 {
        assert IsSpace(s[p.dtypeEnd]);
      }
    }
    SpaceRunIs(s, p.dtypeEnd, e - 1);
  }

  /** The optional name group at `pos` ends at `e`. */
  lemma NameEndAt(s: string, pos: nat, e: nat)
    requires pos <= e <= |s|
    requires if e == pos then pos == |s| || !IsNameStart(s[pos])
             else IsIdentifier(s[pos..e]) && (e == |s| || !IsWordChar(s[e]))
    ensures OptionalNameEnd(s, pos) == e
  {
    if e > pos {
      assert forall k :: pos + 1 <= k < e ==> s[k] == s[pos..e][k - pos];
      RunEndIs(s, pos + 1, Word, e);
    }
  }

  /** A name part that reaches a parenthesis: the scanner's name group is
      that name, and its blank run stops at the parenthesis. */
  lemma NameThenBlanks(s: string, pos: nat, n: Option<string>, open: nat)
    requires NameThenBlanksTo(s, pos, n, open) && open < |s| && s[open] == '('
    ensures var e := if n.None? then pos else pos + |n.value|;
            && OptionalNameEnd(s, pos) == e && RunEnd(s, e, Space) == open
            && n == (if e == pos then None else Some(s[pos..e]))
  {
    var e := if n.None? then pos else pos + |n.value|;
    BlanksThenParenthesis(s, e, open);
    if n.None? {
      BlanksThenParenthesis(s, pos, open);
    }
    NameEndAt(s, pos, e);
    SpaceRunIs(s, e, open);
  }

  /** Blanks up to a parenthesis: no name starts there, and the blank run stops at it. */
  lemma BlanksThenParenthesis(s: string, e: nat, open: nat)
    requires e <= open < |s| && SpacesBetween(s, e, open) && s[open] == '('
    ensures !IsNameStart(s[e]) && !IsWordChar(s[e]) && !InClass(s[open], Space)
  {
    if e < open {
      assert IsSpace(s[e]);
    }
  }

  /** A parenthesised pair, with or without a name, is matched at `pos`
      exactly when the text there reads as it: alternative (a) of the
      pattern, blanks included. */
  lemma ParenPairExactly(s: string, pos: nat, m: Match)
    requires pos <= |s| && m.ParenPair?
    ensures MatchAt(s, pos) == Some(m) <==> SoundAt(s, pos, m)
  {
    if SoundAt(s, pos, m) {
      SoundParenAlternative(s, pos, m);
    }
  }

  /** Alternative (a) on its own reads a sound parenthesised token. */
  lemma SoundParenAlternative(s: string, pos: nat, m: Match)
    requires pos <= |s| && m.ParenPair? && SoundAt(s, pos, m)
    ensures ParenAlternative(s, pos) == Some(m)
  {
    NameThenBlanks(s, pos, m.optName, m.open);
    ParenthesisedPairAt(s, m.open, m.pair, m.end);
  }

  /** A bare pair is matched at `pos` exactly when the text there reads as
      it: alternative (b) of the pattern, blanks around the slash included. */
  lemma BarePairExactly(s: string, pos: nat, m: Match)
    requires pos <= |s| && m.BarePair?
    ensures MatchAt(s, pos) == Some(m) <==> SoundAt(s, pos, m)
  {
    if SoundAt(s, pos, m) {
      NoParenthesisAtDigit(s, pos);
      PairFromAt(s, m.pair);
    }
  }

  /** A digit starts neither a name nor a blank run, so alternative (a) fails there. */
  lemma NoParenthesisAtDigit(s: string, pos: nat)
    requires pos < |s| && IsDigit(s[pos])
    ensures ParenAlternative(s, pos) == None
  {
    assert !IsNameStart(s[pos]) && !IsSpace(s[pos]);
    RunEndIs(s, pos, Space, pos);
  }

  /** A bare name: a name not followed, after blanks, by a parenthesis. */
  lemma NameTokenAt(s: string, pos: nat, e: nat, w: nat)
    requires pos < e <= w <= |s|
    requires IsIdentifier(s[pos..e]) && (e == |s| || !IsWordChar(s[e]))
    requires SpacesBetween(s, e, w) && (w == |s| || (!IsSpace(s[w]) && s[w] != '('))
    ensures MatchAt(s, pos) == Some(NameOnly(s[pos..e], e))
  {
    NameEndAt(s, pos, e);
    RunEndIs(s, e, Space, w);
    RunEndIs(s, pos, Digit, pos);
  }

  // ---------------------------------------------------------------------------
  // The documented example forms, as tests state them

  lemma ParseEmpty()
    ensures Parse("") == ParseResult(Parsed(LayerList([])), [])
  {
  }

  lemma ParseOnlyName(s: string)
    requires s == "met1"
    ensures Parse(s) == ParseResult(Parsed(LayerList([Named("met1")])), [])
  {
    assert s[0..4] == s;
    NameTokenAt(s, 0, 4, 4);
    assert ScanFrom(s, 4) == Scan([], []);
  }

  lemma ParseOnlyGdsPair(s: string)
    requires s == "(3/10)"
    ensures Parse(s) == ParseResult(Parsed(LayerList([Numeric(3, 10)])), [])
  {
    var m := GdsPairToken(s);
    SoleParenthesisedPair(s, m);
  }

  /** The token `(3/10)`, with its parts where they lie. */
  lemma GdsPairToken(s: string) returns (m: Match)
    requires s == "(3/10)"
    ensures m.ParenPair? && m.optName.None? && m.end == |s| && SoundAt(s, 0, m)
    ensures DecimalValue(m.layer) == 3 && DecimalValue(m.dtype) == 10
  {
    assert s[1..2] == "3" && s[3..5] == "10";
    assert DecimalValue("10") == 10;
    m := ParenPair(None, "3", "10", 0, PairSpan(1, 2, 2, 3, 5), 6);
  }

  /** A string that is exactly one unnamed `( L / D )`, with any blanks
      before or inside it, parses to that one numeric layer. */
  lemma SoleParenthesisedPair(s: string, m: Match)
    requires m.ParenPair? && m.optName.None? && m.end == |s| && SoundAt(s, 0, m)
    ensures Parse(s) == ParseResult(Parsed(LayerList([Numeric(DecimalValue(m.layer), DecimalValue(m.dtype))])), [])
  {
    ParenPairExactly(s, 0, m);
    SoleToken(s, m);
  }

  /** A string that is one token scans to that token's layer and nothing else. */
  lemma SoleToken(s: string, m: Match)
    requires 0 < |s| && MatchAt(s, 0) == Some(m) && m.end == |s|
    ensures m.ParenPair? || m.BarePair? ==> AllDigits(m.layer) && AllDigits(m.dtype)
    ensures ScanFrom(s, 0) == Scan([LayerOf(m)], [])
  {
    MatchStep(s, 0, m);
    assert ScanFrom(s, m.end) == Scan([], []);
    assert [LayerOf(m)] + [] == [LayerOf(m)];
  }

  // ---------------------------------------------------------------------------
  // Separators

  /** Blanks before a parenthesis belong to alternative (a); dropping one
      leading blank does not change the match. */
  lemma BlankBeforeParenthesis(s: string, pos: nat)
    requires pos < |s| && IsSpace(s[pos]) && ParenAlternative(s, pos).Some?
    ensures ParenAlternative(s, pos + 1) == ParenAlternative(s, pos)
  {
    var m := ParenAlternative(s, pos).value;
    DropLeadingBlank(s, pos, m);
    SoundParenAlternative(s, pos + 1, m);
  }

  lemma DropLeadingBlank(s: string, pos: nat, m: Match)
    requires pos < |s| && IsSpace(s[pos]) && m.ParenPair? && SoundAt(s, pos, m)
    ensures m.optName == None && SoundAt(s, pos + 1, m)
  {
    assert m.optName == None by {
      BlankIsNoWordChar(s[pos]);
    }
    BlanksThenParenthesis(s, pos + 1, m.open);
    assert NameThenBlanksTo(s, pos + 1, None, m.open);
  }

  lemma BlankIsNoWordChar(c: char)
    requires IsSpace(c)
    ensures !IsWordChar(c) && c != '(' && c != ')' && c != '/'
  {
  }

  /** At a blank or a comma only alternative (a) can match, and it matches
      the same text from the next position. */
  lemma SeparatorMatch(s: string, pos: nat)
    requires pos < |s| && IsSeparator(s[pos])
    ensures MatchAt(s, pos).Some? ==> MatchAt(s, pos + 1) == MatchAt(s, pos)
  {
    if MatchAt(s, pos).Some? {
      MatchStartsInAlphabet(s, pos);
      assert s[pos] == ' ';
      BlankMatchIsParenthesised(s, pos);
      BlankBeforeParenthesis(s, pos);
    }
  }

  lemma MatchStartsInAlphabet(s: string, pos: nat)
    requires pos < |s| && MatchAt(s, pos).Some?
    ensures InTokenAlphabet(s[pos])
  {
    MatchAlphabetOnly(s, pos);
  }

  /** At a blank only alternative (a) can match. */
  lemma BlankMatchIsParenthesised(s: string, pos: nat)
    requires pos < |s| && IsSpace(s[pos])
    ensures MatchAt(s, pos) == ParenAlternative(s, pos)
  {
    BlankIsNoWordChar(s[pos]);
    RunEndIs(s, pos, Digit, pos);
  }

  /** A blank or a comma between tokens adds no layer and no error. */
  lemma SeparatorAddsNothing(s: string, pos: nat)
    requires pos < |s| && IsSeparator(s[pos])
    ensures ScanFrom(s, pos) == ScanFrom(s, pos + 1)
  {
    SeparatorMatch(s, pos);
    if MatchAt(s, pos).Some? {
      MatchStep(s, pos, MatchAt(s, pos).value);
      MatchStep(s, pos + 1, MatchAt(s, pos).value);
    } else {
      UnmatchedStep(s, pos);
    }
  }

  // ---------------------------------------------------------------------------
  // Stray characters

  /** `s[i]` is outside the notation's alphabet and is not a comma. */
  predicate StrayAt(s: string, i: nat)
  {
    i < |s| && !InTokenAlphabet(s[i]) && s[i] != ','
  }

  /** The scan reports an unexpected token at column `i`. */
  predicate ReportedFrom(s: string, pos: nat, i: nat)
    requires pos <= |s|
  {
    ParserError(UnexpectedTokenMessage(i), i) in ScanFrom(s, pos).errors
  }

  /** A stray character is never swallowed by a token and never skipped:
      the scan reports it. */
  lemma {:induction false} StrayCharacterReportedFrom(s: string, pos: nat, i: nat)
    requires pos <= i && StrayAt(s, i)
    ensures ReportedFrom(s, pos, i)
    decreases i - pos
  {
    var next := StrayStep(s, pos, i);
    if next > pos {
      StrayCharacterReportedFrom(s, next, i);
    }
  }

  /** One iteration of the scan before a stray character: either it reports
      the character, or the report from the next position carries over. */
  lemma StrayStep(s: string, pos: nat, i: nat) returns (next: nat)
    requires pos <= i && StrayAt(s, i)
    ensures pos <= next <= i
    ensures next == pos ==> ReportedFrom(s, pos, i)
    ensures next > pos && ReportedFrom(s, next, i) ==> ReportedFrom(s, pos, i)
  {
    if MatchAt(s, pos).Some? {
      next := MatchAt(s, pos).value.end;
      MatchStopsBefore(s, pos, i);
      MatchStep(s, pos, MatchAt(s, pos).value);
    } else {
      next := if pos < i then pos + 1 else pos;
      UnmatchedStep(s, pos);
    }
  }

  /** A token never extends over a character outside the alphabet. */
  lemma MatchStopsBefore(s: string, pos: nat, i: nat)
    requires pos <= i < |s| && !InTokenAlphabet(s[i]) && MatchAt(s, pos).Some?
    ensures MatchAt(s, pos).value.end <= i
  {
    MatchAlphabetOnly(s, pos);
  }

  /** A stray character makes the whole string invalid, with an error at its index. */
  lemma StrayCharacterIsReported(s: string, i: nat)
    requires i < |s| && !InTokenAlphabet(s[i]) && s[i] != ','
    ensures ParserError(UnexpectedTokenMessage(i), i) in Parse(s).errors
    ensures Parse(s).result.EmptyDefault? && !IsValidLayerListString(s)
  {
    StrayCharacterReportedFrom(s, 0, i);
  }

  // ---------------------------------------------------------------------------
  // Tokens in sequence

  /** A name, blanks, then a parenthesised pair is one token, read as one
      named layer and never as a name-only layer followed by a numeric one;
      the scan continues right after the parenthesis. */
  lemma NamedPairIsOneLayer(s: string, pos: nat, m: Match)
    requires m.ParenPair? && m.optName.Some? && SoundAt(s, pos, m)
    ensures ScanFrom(s, pos)
         == Scan([NumericNamed(DecimalValue(m.layer), DecimalValue(m.dtype), m.optName.value)] + ScanFrom(s, m.end).layers,
                 ScanFrom(s, m.end).errors)
  {
    ParenPairExactly(s, pos, m);
    MatchStep(s, pos, m);
  }

  /** A bare pair token, read as one numeric layer; the scan continues
      right after its second numeral. */
  lemma BarePairIsOneLayer(s: string, pos: nat, m: Match)
    requires m.BarePair? && SoundAt(s, pos, m)
    ensures ScanFrom(s, pos)
         == Scan([Numeric(DecimalValue(m.layer), DecimalValue(m.dtype))] + ScanFrom(s, m.end).layers,
                 ScanFrom(s, m.end).errors)
  {
    BarePairExactly(s, pos, m);
    MatchStep(s, pos, m);
  }

  /** The scan from a position depends only on the position. */
  lemma SamePosition(s: string, a: nat, b: nat)
    requires a == b <= |s|
    ensures ScanFrom(s, a) == ScanFrom(s, b)
  {
  }

  /** A blank or a comma, with the rest of the scan given. */
  lemma SeparatorThen(s: string, pos: nat, rest: Scan)
    requires pos < |s| && IsSeparator(s[pos]) && ScanFrom(s, pos + 1) == rest
    ensures ScanFrom(s, pos) == rest
  {
    SeparatorAddsNothing(s, pos);
  }

  /** A named pair followed by a blank or a comma, with the rest of the
      scan given. */
  lemma NamedPairThenSeparator(s: string, pos: nat, m: Match, rest: Scan)
    requires m.ParenPair? && m.optName.Some? && SoundAt(s, pos, m)
    requires m.end < |s| && IsSeparator(s[m.end]) && ScanFrom(s, m.end + 1) == rest
    ensures ScanFrom(s, pos)
         == Scan([NumericNamed(DecimalValue(m.layer), DecimalValue(m.dtype), m.optName.value)] + rest.layers, rest.errors)
  {
    SeparatorThen(s, m.end, rest);
    NamedPairIsOneLayer(s, pos, m);
  }

  /** A bare pair followed by a blank or a comma, with the rest of the scan
      given. */
  lemma BarePairThenSeparator(s: string, pos: nat, m: Match, rest: Scan)
    requires m.BarePair? && SoundAt(s, pos, m)
    requires m.end < |s| && IsSeparator(s[m.end]) && ScanFrom(s, m.end + 1) == rest
    ensures ScanFrom(s, pos) == Scan([Numeric(DecimalValue(m.layer), DecimalValue(m.dtype))] + rest.layers, rest.errors)
  {
    SeparatorThen(s, m.end, rest);
    BarePairIsOneLayer(s, pos, m);
  }

  // ---------------------------------------------------------------------------
  // The mixed example: names with pairs, bare pairs, blanks between tokens

  /** The example's text, token by token. */
  const Mixed: string := "metal1 (1/0) " + "via1 (2/0) " + "metal2 (3/0) " + "1/0 " + "99/42"

  /** The value of a two-digit numeral. */
  lemma TwoDigitValue(t: string)
    requires |t| == 2 && AllDigits(t)
    ensures DecimalValue(t) == 10 * DigitValue(t[0]) + DigitValue(t[1])
  {
    var head := t[..1];
    assert head[..0] == [] && head[0] == t[0];
    assert DecimalValue(head) == DigitValue(t[0]);
  }

  lemma MixedFirst(s: string) returns (m: Match)
    requires s == Mixed
    ensures m.ParenPair? && m.optName == Some("metal1") && m.end == 12 && SoundAt(s, 0, m)
    ensures m.end < |s| && IsSeparator(s[m.end])
    ensures DecimalValue(m.layer) == 1 && DecimalValue(m.dtype) == 0
  {
    assert s[0..6] == "metal1" && IsIdentifier("metal1");
    assert NameThenBlanksTo(s, 0, Some("metal1"), 7);
    assert ParenthesisedAt(s, 7, PairSpan(8, 9, 9, 10, 11), 12);
    assert s[8..9] == "1" && s[10..11] == "0";
    m := ParenMatch(s, 0, Some("metal1"), 7, PairSpan(8, 9, 9, 10, 11), 12);
  }

  lemma MixedSecond(s: string) returns (m: Match)
    requires s == Mixed
    ensures m.ParenPair? && m.optName == Some("via1") && m.end == 23 && SoundAt(s, 13, m)
    ensures m.end < |s| && IsSeparator(s[m.end])
    ensures DecimalValue(m.layer) == 2 && DecimalValue(m.dtype) == 0
  {
    assert s[13..17] == "via1" && IsIdentifier("via1");
    assert NameThenBlanksTo(s, 13, Some("via1"), 18);
    assert ParenthesisedAt(s, 18, PairSpan(19, 20, 20, 21, 22), 23);
    assert s[19..20] == "2" && s[21..22] == "0";
    m := ParenMatch(s, 13, Some("via1"), 18, PairSpan(19, 20, 20, 21, 22), 23);
  }

  lemma MixedThird(s: string) returns (m: Match)
    requires s == Mixed
    ensures m.ParenPair? && m.optName == Some("metal2") && m.end == 36 && SoundAt(s, 24, m)
    ensures m.end < |s| && IsSeparator(s[m.end])
    ensures DecimalValue(m.layer) == 3 && DecimalValue(m.dtype) == 0
  {
    assert s[24..30] == "metal2" && IsIdentifier("metal2");
    assert NameThenBlanksTo(s, 24, Some("metal2"), 31);
    assert ParenthesisedAt(s, 31, PairSpan(32, 33, 33, 34, 35), 36);
    assert s[32..33] == "3" && s[34..35] == "0";
    m := ParenMatch(s, 24, Some("metal2"), 31, PairSpan(32, 33, 33, 34, 35), 36);
  }

  lemma MixedFourth(s: string) returns (m: Match)
    requires s == Mixed
    ensures m.BarePair? && m.end == 40 && SoundAt(s, 37, m)
    ensures m.end < |s| && IsSeparator(s[m.end])
    ensures DecimalValue(m.layer) == 1 && DecimalValue(m.dtype) == 0
  {
    assert s[37..38] == "1" && s[39..40] == "0";
    m := BarePair("1", "0", PairSpan(37, 38, 38, 39, 40), 40);
  }

  lemma MixedFifth(s: string) returns (m: Match)
    requires s == Mixed
    ensures m.BarePair? && m.end == 46 == |s| && SoundAt(s, 41, m)
    ensures DecimalValue(m.layer) == 99 && DecimalValue(m.dtype) == 42
  {
    assert s[41..43] == "99" && s[44..46] == "42";
    TwoDigitValue("99");
    TwoDigitValue("42");
    m := BarePair("99", "42", PairSpan(41, 43, 43, 44, 46), 46);
  }

  /** The layers the example reads to, in the order of the text. */
  const MixedLayers: seq<Layer> :=
    [NumericNamed(1, 0, "metal1"), NumericNamed(2, 0, "via1"), NumericNamed(3, 0, "metal2"), Numeric(1, 0), Numeric(99, 42)]

  lemma ConsSlice<T>(xs: seq<T>, i: nat)
    requires i < |xs|
    ensures [xs[i]] + xs[i + 1..] == xs[i..]
  {
  }

  /** The scan of the example from each token on, last token first; the
      blank after a token adds nothing. */
  lemma MixedFrom41(s: string)
    requires s == Mixed
    ensures ScanFrom(s, 41) == Scan(MixedLayers[4..], [])
  {
    var m := MixedFifth(s);
    BarePairIsOneLayer(s, 41, m);
    assert ScanFrom(s, m.end) == Scan([], []);
  }

  lemma MixedFrom37(s: string)
    requires s == Mixed
    ensures ScanFrom(s, 37) == Scan(MixedLayers[3..], [])
  {
    var m := MixedFourth(s);
    MixedFrom41(s);
    SamePosition(s, m.end + 1, 41);
    BarePairThenSeparator(s, 37, m, ScanFrom(s, 41));
    ConsSlice(MixedLayers, 3);
  }

  lemma MixedFrom24(s: string)
    requires s == Mixed
    ensures ScanFrom(s, 24) == Scan(MixedLayers[2..], [])
  {
    var m := MixedThird(s);
    MixedFrom37(s);
    SamePosition(s, m.end + 1, 37);
    NamedPairThenSeparator(s, 24, m, ScanFrom(s, 37));
    ConsSlice(MixedLayers, 2);
  }

  lemma MixedFrom13(s: string)
    requires s == Mixed
    ensures ScanFrom(s, 13) == Scan(MixedLayers[1..], [])
  {
    var m := MixedSecond(s);
    MixedFrom24(s);
    SamePosition(s, m.end + 1, 24);
    NamedPairThenSeparator(s, 13, m, ScanFrom(s, 24));
    ConsSlice(MixedLayers, 1);
  }

  lemma MixedFrom0(s: string)
    requires s == Mixed
    ensures ScanFrom(s, 0) == Scan(MixedLayers, [])
  {
    var m := MixedFirst(s);
    MixedFrom13(s);
    SamePosition(s, m.end + 1, 13);
    NamedPairThenSeparator(s, 0, m, ScanFrom(s, 13));
    ConsSlice(MixedLayers, 0);
    assert MixedLayers[0..] == MixedLayers;
  }

  /** The unit tests' mixed example: three named pairs and two bare pairs,
      in the order of the text, and no errors. */
  lemma ParseMixed(s: string)
    requires s == "metal1 (1/0) via1 (2/0) metal2 (3/0) 1/0 99/42"
    ensures Parse(s) == ParseResult(Parsed(LayerList([
              NumericNamed(1, 0, "metal1"), NumericNamed(2, 0, "via1"), NumericNamed(3, 0, "metal2"),
              Numeric(1, 0), Numeric(99, 42)])), [])
  {
    assert s == Mixed;
    MixedFrom0(s);
  }
}

=== FILE: layer_list_string.dfy ===
/**
 The layer-list notation of `LayerList.parse_layer_list_string`: a comma or
 blank separated list of layers such as "metal1 (1/0) via1 (2/0) 1/0 met3".

 The scanner tries, at each position, one anchored regular expression with
 three ordered alternatives:
   (a) an optional name, blanks, "(", a layer/datatype pair, ")";
   (b) a bare layer/datatype pair;
   (c) a bare name.
 Each alternative is matched here by a greedy hand-written scanner. Greedy
 scanning finds the match the backtracking engine finds: every quantified
 run in the pattern is followed by something the run's class cannot contain,
 or ends its alternative, where the longest run is the one kept; so giving
 characters back never lets the rest of the pattern succeed.
 */
module LayerListString {
  import opened Base

  // ---------------------------------------------------------------------------
  // Data model

  /** One layer reference (a `pya.LayerInfo`): a name, a layer/datatype pair, or both. */
  datatype Layer =
    | Named(name: string)
    | Numeric(layer: nat, dtype: nat)
    | NumericNamed(layer: nat, dtype: nat, name: string)

  /** A diagnostic and the zero-based column of the character it is about. */
  datatype ParserError = ParserError(msg: string, column: nat)

  datatype LayerList = LayerList(layers: seq<Layer>)

  /** The `result` slot of a parse result: the layer list on success, and
      otherwise the dataclass default, an empty Python list (not a LayerList). */
  datatype ResultField = EmptyDefault | Parsed(list: LayerList)

  datatype ParseResult = ParseResult(result: ResultField, errors: seq<ParserError>)

  // ---------------------------------------------------------------------------
  // Character classes of the pattern

  predicate IsAsciiLetter(c: char) { 'A' <= c <= 'Z' || 'a' <= c <= 'z' }

  predicate IsDigit(c: char) { '0' <= c <= '9' }

  /** `[A-Za-z_]`, the first character of a name. */
  predicate IsNameStart(c: char) { IsAsciiLetter(c) || c == '_' }

  /** `\w`, restricted to ASCII. */
  predicate IsWordChar(c: char) { IsNameStart(c) || IsDigit(c) }

  /** `\s`: exactly the code points for which Python's `str.isspace` holds. */
  predicate IsSpace(c: char)
  {
    var n := c as int;
    || 0x09 <= n <= 0x0D
    || 0x1C <= n <= 0x20
    || n == 0x85 || n == 0xA0 || n == 0x1680
    || 0x2000 <= n <= 0x200A
    || n == 0x2028 || n == 0x2029 || n == 0x202F || n == 0x205F || n == 0x3000
  }

  /** Every character any alternative of the pattern can consume. */
  predicate InTokenAlphabet(c: char)
  {
    IsWordChar(c) || IsSpace(c) || c == '(' || c == ')' || c == '/'
  }

  /** The two characters the scanner skips between tokens. */
  predicate IsSeparator(c: char) { c == ' ' || c == ',' }

  datatype CharClass = Space | Digit | Word

  predicate InClass(c: char, k: CharClass)
  {
    match k
    case Space => IsSpace(c)
    case Digit => IsDigit(c)
    case Word => IsWordChar(c)
  }

  predicate AllDigits(t: string) { forall k :: 0 <= k < |t| ==> IsDigit(t[k]) }

  /** `\d+` */
  predicate IsNumeral(t: string) { |t| > 0 && AllDigits(t) }

  /** `[A-Za-z_]\w*` */
  predicate IsIdentifier(t: string)
  {
    |t| > 0 && IsNameStart(t[0]) && forall k :: 1 <= k < |t| ==> IsWordChar(t[k])
  }

  // ---------------------------------------------------------------------------
  // Decimal numerals: Python's `int(...)` on `\d+` and `str(...)` of a column

  function DigitValue(c: char): nat
    requires IsDigit(c)
  {
    (c as int) - ('0' as int)
  }

  /** The value of a decimal numeral; leading zeros are allowed, as in `int("007")`. */
  function DecimalValue(t: string): nat
    requires AllDigits(t)
  {
    if |t| == 0 then 0 else DecimalValue(t[..|t| - 1]) * 10 + DigitValue(t[|t| - 1])
  }

  function DigitChar(d: nat): (c: char)
    requires d < 10
    ensures IsDigit(c) && DigitValue(c) == d
  {
    (('0' as int) + d) as char
  }

  /** The decimal text of a natural number, as an f-string renders it. */
  function NatToDecimal(n: nat): (t: string)
    ensures IsNumeral(t)
    ensures DecimalValue(t) == n
    ensures |t| == 1 || t[0] != '0'
  {
    if n < 10 then
      [DigitChar(n)]
    else
      var t := NatToDecimal(n / 10) + [DigitChar(n % 10)];
      assert t[..|t| - 1] == NatToDecimal(n / 10);
      t
  }

  function UnexpectedTokenMessage(pos: nat): string
  {
    "Unexpected token at position " + NatToDecimal(pos)
  }

  function InvalidTokenMessage(pos: nat): string
  {
    "Invalid token at position " + NatToDecimal(pos)
  }

  // ---------------------------------------------------------------------------
  // The regular expression

  /** End of the longest run of characters of class `k` starting at `i`. */
  function RunEnd(s: string, i: nat, k: CharClass): (j: nat)
    requires i <= |s|
    ensures i <= j <= |s|
    ensures forall p :: i <= p < j ==> InClass(s[p], k)
    ensures j == |s| || !InClass(s[j], k)
    decreases |s| - i
  {
    if i < |s| && InClass(s[i], k) then RunEnd(s, i + 1, k) else i
  }

  /** A run is determined by where it stops: the maximal run is unique. */
  lemma RunEndIs(s: string, i: nat, k: CharClass, j: nat)
    requires i <= j <= |s|
    requires forall p :: i <= p < j ==> InClass(s[p], k)
    requires j == |s| || !InClass(s[j], k)
    ensures RunEnd(s, i, k) == j
  {
  }

  /** No character outside the token alphabet lies in `s[i..j]`. */
  predicate AlphabetOnly(s: string, i: nat, j: nat)
    requires i <= j <= |s|
  {
    forall k :: i <= k < j ==> InTokenAlphabet(s[k])
  }

  lemma AlphabetOnlyJoin(s: string, i: nat, j: nat, k: nat)
    requires i <= j <= k <= |s|
    requires AlphabetOnly(s, i, j) && AlphabetOnly(s, j, k)
    ensures AlphabetOnly(s, i, k)
  {
  }

  lemma RunIsAlphabetOnly(s: string, i: nat, k: CharClass)
    requires i <= |s|
    ensures AlphabetOnly(s, i, RunEnd(s, i, k))
  {
  }

  /** `s[i..j]` is a run of digits. */
  predicate DigitsBetween(s: string, i: nat, j: nat)
    requires i <= j <= |s|
  {
    forall k :: i <= k < j ==> IsDigit(s[k])
  }

  /** `s[i..j]` is a run of `\s`. */
  predicate SpacesBetween(s: string, i: nat, j: nat)
    requires i <= j <= |s|
  {
    forall k :: i <= k < j ==> IsSpace(s[k])
  }

  /** Where the parts of `\d+ \s* / \s* \d+` lie: the layer numeral at
      `[layerAt, layerEnd)`, the slash, the datatype numeral at
      `[dtypeAt, dtypeEnd)`. */
  datatype PairSpan = PairSpan(layerAt: nat, layerEnd: nat, slash: nat, dtypeAt: nat, dtypeEnd: nat)

  /** The text at `p` reads `\d+ \s* / \s* \d+`. */
  predicate PairAt(s: string, p: PairSpan)
  {
    && p.layerAt < p.layerEnd <= p.slash < p.dtypeAt < p.dtypeEnd <= |s|
    && DigitsBetween(s, p.layerAt, p.layerEnd)
    && SpacesBetween(s, p.layerEnd, p.slash)
    && s[p.slash] == '/'
    && SpacesBetween(s, p.slash + 1, p.dtypeAt)
    && DigitsBetween(s, p.dtypeAt, p.dtypeEnd)
  }

  /** The text from `open` to `e` reads `\( \s* L \s* / \s* D \s* \)` with
      the pair at `p`. */
  predicate ParenthesisedAt(s: string, open: nat, p: PairSpan, e: nat)
  {
    && PairAt(s, p) && e <= |s|
    && open < p.layerAt && s[open] == '(' && SpacesBetween(s, open + 1, p.layerAt)
    && p.dtypeEnd < e && SpacesBetween(s, p.dtypeEnd, e - 1) && s[e - 1] == ')'
  }

  /** The optional name group and the `\s*` after it reach from `pos` to `open`. */
  predicate NameThenBlanksTo(s: string, pos: nat, n: Option<string>, open: nat)
  {
    && pos <= open <= |s|
    && match n
       case None => SpacesBetween(s, pos, open)
       case Some(name) =>
         && IsIdentifier(name) && pos + |name| <= open
         && s[pos..pos + |name|] == name && SpacesBetween(s, pos + |name|, open)
  }

  /** A successful `match`: the groups of the alternative that matched, and
      where its parts lie in the text. */
  datatype Match =
    | ParenPair(optName: Option<string>, layer: string, dtype: string, open: nat, pair: PairSpan, end: nat)
    | BarePair(layer: string, dtype: string, pair: PairSpan, end: nat)
    | NameOnly(name: string, end: nat)

  /** The text from `pos` to the end of `m` reads as the alternative of `m`,
      each group holding the text at its place:
        (a) name?, `\s*`, `(`, `\s*`, L, `\s*`, `/`, `\s*`, D, `\s*`, `)`;
        (b) L, `\s*`, `/`, `\s*`, D, with D not followed by a digit;
        (c) a name not followed by a word character. */
  predicate SoundAt(s: string, pos: nat, m: Match)
  {
    && pos < m.end <= |s|
    && match m
       case ParenPair(n, l, d, open, p, e) =>
         && NameThenBlanksTo(s, pos, n, open)
         && ParenthesisedAt(s, open, p, e)
         && IsNumeral(l) && IsNumeral(d)
         && s[p.layerAt..p.layerEnd] == l && s[p.dtypeAt..p.dtypeEnd] == d
       case BarePair(l, d, p, e) =>
         && p.layerAt == pos && p.dtypeEnd == e
         && PairAt(s, p)
         && IsNumeral(l) && IsNumeral(d)
         && s[p.layerAt..p.layerEnd] == l && s[p.dtypeAt..p.dtypeEnd] == d
         && (e == |s| || !IsDigit(s[e]))
       case NameOnly(n, e) =>
         && IsIdentifier(n) && s[pos..e] == n
         && (e == |s| || !IsWordChar(s[e]))
  }

  /** A pair span's numerals are numerals. */
  lemma PairNumerals(s: string, p: PairSpan)
    requires PairAt(s, p)
    ensures IsNumeral(s[p.layerAt..p.layerEnd]) && IsNumeral(s[p.dtypeAt..p.dtypeEnd])
  {
    assert forall k :: 0 <= k < p.layerEnd - p.layerAt ==> s[p.layerAt..p.layerEnd][k] == s[p.layerAt + k];
    assert forall k :: 0 <= k < p.dtypeEnd - p.dtypeAt ==> s[p.dtypeAt..p.dtypeEnd][k] == s[p.dtypeAt + k];
  }

  /** The shared part `\d+ \s* / \s* \d+` of alternatives (a) and (b), from `i`. */
  function PairFrom(s: string, i: nat): (r: Option<PairSpan>)
    requires i <= |s|
    ensures r.Some? ==>
              && r.value.layerAt == i && PairAt(s, r.value)
              && (r.value.dtypeEnd == |s| || !IsDigit(s[r.value.dtypeEnd]))
  {
    var l1 := RunEnd(s, i, Digit);
    if l1 == i then None
    else
      var slash := RunEnd(s, l1, Space);
      if slash == |s| || s[slash] != '/' then None
      else
        var d0 := RunEnd(s, slash + 1, Space);
        var d1 := RunEnd(s, d0, Digit);
        if d1 == d0 then None
        else Some(PairSpan(i, l1, slash, d0, d1))
  }

  /** End of the optional name group `(?P<name>[A-Za-z_]\w*)?` at `pos`. */
  function OptionalNameEnd(s: string, pos: nat): (e: nat)
    requires pos <= |s|
    ensures pos <= e <= |s|
    ensures e == pos <==> pos == |s| || !IsNameStart(s[pos])
    ensures e > pos ==> IsIdentifier(s[pos..e]) && (e == |s| || !IsWordChar(s[e]))
  {
    if pos < |s| && IsNameStart(s[pos]) then
      var e := RunEnd(s, pos + 1, Word);
      assert forall k :: pos < k < e ==> InClass(s[k], Word);
      e
    else pos
  }

  /** The parenthesised part `\( \s* \d+ \s* / \s* \d+ \s* \)` from `open`:
      where the pair lies and the position after the closing parenthesis. */
  function ParenthesisedPairFrom(s: string, open: nat): (r: Option<(PairSpan, nat)>)
    requires open <= |s|
    ensures r.Some? ==> ParenthesisedAt(s, open, r.value.0, r.value.1)
  {
    if open == |s| || s[open] != '(' then None
    else
      var l0 := RunEnd(s, open + 1, Space);
      match PairFrom(s, l0)
      case None => None
      case Some(p) =>
        var close := RunEnd(s, p.dtypeEnd, Space);
        if close == |s| || s[close] != ')' then None
        else Some((p, close + 1))
  }

  /** Alternative (a): `(?P<name>[A-Za-z_]\w*)? \s* \( \s* \d+ \s* / \s* \d+ \s* \)`. */
  function ParenAlternative(s: string, pos: nat): (r: Option<Match>)
    requires pos <= |s|
    ensures r.Some? ==> r.value.ParenPair? && SoundAt(s, pos, r.value)
  {
    var nameEnd := OptionalNameEnd(s, pos);
    var open := RunEnd(s, nameEnd, Space);
    var pp := ParenthesisedPairFrom(s, open);
    if pp.None? then None
    else
      NameGroupThenBlanks(s, pos);
      Some(ParenMatch(s, pos, if nameEnd == pos then None else Some(s[pos..nameEnd]), open, pp.value.0, pp.value.1))
  }

  /** The optional name group and the blanks after it, as the scanner finds them. */
  lemma NameGroupThenBlanks(s: string, pos: nat)
    requires pos <= |s|
    ensures var nameEnd := OptionalNameEnd(s, pos);
            NameThenBlanksTo(s, pos, if nameEnd == pos then None else Some(s[pos..nameEnd]), RunEnd(s, nameEnd, Space))
  {
  }

  /** The match of alternative (a) with its name part up to `open` and its
      pair at `p`: its groups are the text at their places. */
  function ParenMatch(s: string, pos: nat, name: Option<string>, open: nat, p: PairSpan, e: nat): (m: Match)
    requires NameThenBlanksTo(s, pos, name, open) && ParenthesisedAt(s, open, p, e)
    ensures m.ParenPair? && SoundAt(s, pos, m)
  {
    PairNumerals(s, p);
    ParenPair(name, s[p.layerAt..p.layerEnd], s[p.dtypeAt..p.dtypeEnd], open, p, e)
  }

  /** Alternative (b): `\d+ \s* / \s* \d+`. */
  function BareAlternative(s: string, pos: nat): (r: Option<Match>)
    requires pos <= |s|
    ensures r.Some? ==> r.value.BarePair? && SoundAt(s, pos, r.value)
  {
    match PairFrom(s, pos)
    case None => None
    case Some(p) =>
      PairNumerals(s, p);
      Some(BarePair(s[p.layerAt..p.layerEnd], s[p.dtypeAt..p.dtypeEnd], p, p.dtypeEnd))
  }

  /** Alternative (c): `[A-Za-z_]\w*`. */
  function NameAlternative(s: string, pos: nat): (r: Option<Match>)
    requires pos <= |s|
    ensures r.Some? ==> r.value.NameOnly? && SoundAt(s, pos, r.value)
    ensures r.None? <==> pos == |s| || !IsNameStart(s[pos])
  {
    if pos == |s| || !IsNameStart(s[pos]) then None
    else
      var e := RunEnd(s, pos + 1, Word);
      assert forall k :: pos < k < e ==> InClass(s[k], Word);
      Some(NameOnly(s[pos..e], e))
  }

  /** `layer_pattern.match(s, pos)`: the first alternative that matches, in order. */
  function MatchAt(s: string, pos: nat): (r: Option<Match>)
    requires pos <= |s|
    ensures r.Some? ==> SoundAt(s, pos, r.value)
    ensures r.None? && pos < |s| ==> !IsNameStart(s[pos])
  {
    match ParenAlternative(s, pos)
    case Some(m) => Some(m)
    case None =>
      match BareAlternative(s, pos)
      case Some(m) => Some(m)
      case None => NameAlternative(s, pos)
  }

  // ---------------------------------------------------------------------------
  // Every character a match consumes is in the pattern's alphabet

  lemma PairFromAlphabetOnly(s: string, i: nat)
    requires i <= |s|
    ensures PairFrom(s, i).Some? ==> AlphabetOnly(s, i, PairFrom(s, i).value.dtypeEnd)
  {
    var l1 := RunEnd(s, i, Digit);
    var slash := RunEnd(s, l1, Space);
    if l1 != i && slash < |s| && s[slash] == '/' {
      var d0 := RunEnd(s, slash + 1, Space);
      var d1 := RunEnd(s, d0, Digit);
      RunIsAlphabetOnly(s, i, Digit);
      RunIsAlphabetOnly(s, l1, Space);
      RunIsAlphabetOnly(s, slash + 1, Space);
      RunIsAlphabetOnly(s, d0, Digit);
      AlphabetOnlyJoin(s, i, l1, slash);
      AlphabetOnlyJoin(s, i, slash, slash + 1);
      AlphabetOnlyJoin(s, i, slash + 1, d0);
      AlphabetOnlyJoin(s, i, d0, d1);
    }
  }

  lemma ParenthesisedPairAlphabetOnly(s: string, open: nat)
    requires open <= |s|
    ensures ParenthesisedPairFrom(s, open).Some? ==> AlphabetOnly(s, open, ParenthesisedPairFrom(s, open).value.1)
  {
    if open < |s| && s[open] == '(' {
      var l0 := RunEnd(s, open + 1, Space);
      assert AlphabetOnly(s, open, open + 1);
      RunIsAlphabetOnly(s, open + 1, Space);
      AlphabetOnlyJoin(s, open, open + 1, l0);
      PairFromAlphabetOnly(s, l0);
      if PairFrom(s, l0).Some? {
        var d1 := PairFrom(s, l0).value.dtypeEnd;
        AlphabetOnlyJoin(s, open, l0, d1);
        var close := RunEnd(s, d1, Space);
        RunIsAlphabetOnly(s, d1, Space);
        AlphabetOnlyJoin(s, open, d1, close);
        if close < |s| && s[close] == ')' {
          assert AlphabetOnly(s, close, close + 1);
          AlphabetOnlyJoin(s, open, close, close + 1);
        }
      }
    }
  }

  lemma NameAlphabetOnly(s: string, pos: nat)
    requires pos <= |s|
    ensures AlphabetOnly(s, pos, OptionalNameEnd(s, pos))
  {
    if pos < |s| && IsNameStart(s[pos]) {
      RunIsAlphabetOnly(s, pos + 1, Word);
      AlphabetOnlyJoin(s, pos, pos + 1, OptionalNameEnd(s, pos));
    }
  }

  /** No match runs over a character outside the alphabet. */
  lemma MatchAlphabetOnly(s: string, pos: nat)
    requires pos <= |s|
    ensures MatchAt(s, pos).Some? ==> AlphabetOnly(s, pos, MatchAt(s, pos).value.end)
  {
    var nameEnd := OptionalNameEnd(s, pos);
    var open := RunEnd(s, nameEnd, Space);
    if ParenAlternative(s, pos).Some? {
      NameAlphabetOnly(s, pos);
      RunIsAlphabetOnly(s, nameEnd, Space);
      ParenthesisedPairAlphabetOnly(s, open);
      AlphabetOnlyJoin(s, pos, nameEnd, open);
      AlphabetOnlyJoin(s, pos, open, ParenAlternative(s, pos).value.end);
    } else if BareAlternative(s, pos).Some? {
      PairFromAlphabetOnly(s, pos);
    } else if NameAlternative(s, pos).Some? {
      NameAlphabetOnly(s, pos);
    }
  }

  /** The `pya.LayerInfo` built from a match. */
  function LayerOf(m: Match): Layer
    requires m.ParenPair? || m.BarePair? ==> AllDigits(m.layer) && AllDigits(m.dtype)
  {
    match m
    case BarePair(l, d, _, _) => Numeric(DecimalValue(l), DecimalValue(d))
    case ParenPair(n, l, d, _, _, _) =>
      if n.None? || n.value == "" then Numeric(DecimalValue(l), DecimalValue(d))
      else NumericNamed(DecimalValue(l), DecimalValue(d), n.value)
    case NameOnly(n, _) => Named(n)
  }

  // ---------------------------------------------------------------------------
  // The groups of a match, as `m.groupdict()` reports them

  datatype Groups = Groups(
    name: Option<string>, layer1: Option<string>, dtype1: Option<string>,
    layer2: Option<string>, dtype2: Option<string>, nameOnly: Option<string>)

  function GroupDict(m: Match): Groups
  {
    match m
    case ParenPair(n, l, d, _, _, _) => Groups(n, Some(l), Some(d), None, None, None)
    case BarePair(l, d, _, _) => Groups(None, None, None, Some(l), Some(d), None)
    case NameOnly(n, _) => Groups(None, None, None, None, None, Some(n))
  }

  /** Python truthiness of an optional group: present and non-empty. */
  predicate Truthy(g: Option<string>) { g.Some? && g.value != "" }

  /** What the branches on the groups rely on: `int(...)` of a group the
      branch reads is only ever applied to a present numeral. */
  predicate GroupsReadable(g: Groups)
  {
    && (Truthy(g.layer2) ==> g.dtype2.Some? && AllDigits(g.layer2.value) && AllDigits(g.dtype2.value))
    && (Truthy(g.layer1) ==> g.dtype1.Some? && AllDigits(g.layer1.value) && AllDigits(g.dtype1.value))
  }

  /** The `if`/`elif` chain on `m.groupdict()`: the layer it builds, or
      `None` for the final "Invalid token" branch. */
  function LayerFromGroups(g: Groups): (r: Option<Layer>)
    requires GroupsReadable(g)
    ensures r.None? <==> !Truthy(g.layer2) && !Truthy(g.layer1) && !Truthy(g.nameOnly)
    ensures Truthy(g.layer2) ==>
              r.value.Numeric? && r.value.layer == DecimalValue(g.layer2.value) && r.value.dtype == DecimalValue(g.dtype2.value)
    ensures !Truthy(g.layer2) && Truthy(g.layer1) && !Truthy(g.name) ==>
              r == Some(Numeric(DecimalValue(g.layer1.value), DecimalValue(g.dtype1.value)))
    ensures !Truthy(g.layer2) && Truthy(g.layer1) && Truthy(g.name) ==>
              r == Some(NumericNamed(DecimalValue(g.layer1.value), DecimalValue(g.dtype1.value), g.name.value))
    ensures !Truthy(g.layer2) && !Truthy(g.layer1) && Truthy(g.nameOnly) ==> r == Some(Named(g.nameOnly.value))
    ensures r.Some? && r.value.Named? ==> !Truthy(g.layer2) && !Truthy(g.layer1) && r.value.name == g.nameOnly.value
    ensures r.Some? && r.value.NumericNamed? ==>
              && !Truthy(g.layer2) && Truthy(g.layer1) && Truthy(g.name) && r.value.name == g.name.value
              && r.value.layer == DecimalValue(g.layer1.value) && r.value.dtype == DecimalValue(g.dtype1.value)
  {
    if Truthy(g.layer2) then
      Some(Numeric(DecimalValue(g.layer2.value), DecimalValue(g.dtype2.value)))
    else if Truthy(g.layer1) then
      var name := if Truthy(g.name) then g.name.value else "";
      if name == "" then Some(Numeric(DecimalValue(g.layer1.value), DecimalValue(g.dtype1.value)))
      else Some(NumericNamed(DecimalValue(g.layer1.value), DecimalValue(g.dtype1.value), name))
    else if Truthy(g.nameOnly) then
      Some(Named(g.nameOnly.value))
    else
      None
  }

  // ---------------------------------------------------------------------------
  // The scan loop

  /** Layers and errors collected from some position to the end of the input. */
  datatype Scan = Scan(layers: seq<Layer>, errors: seq<ParserError>)

  /** An error the scanner reports: at its column nothing matches and the
      character is not a separator; its message names the column. */
  predicate IsUnexpectedAt(s: string, e: ParserError)
  {
    && e.column < |s|
    && MatchAt(s, e.column).None?
    && !IsSeparator(s[e.column])
    && e.msg == UnexpectedTokenMessage(e.column)
  }

  /** The loop of `parse_layer_list_string` from position `pos` on. */
  function ScanFrom(s: string, pos: nat): (r: Scan)
    requires pos <= |s|
    ensures |r.layers| + |r.errors| <= |s| - pos
    decreases |s| - pos
  {
    if pos == |s| then Scan([], [])
    else
      match MatchAt(s, pos)
      case Some(m) =>
        var rest := ScanFrom(s, m.end);
        Scan([LayerOf(m)] + rest.layers, rest.errors)
      case None =>
        var rest := ScanFrom(s, pos + 1);
        if IsSeparator(s[pos]) then rest
        else Scan(rest.layers, [ParserError(UnexpectedTokenMessage(pos), pos)] + rest.errors)
  }

  /** `LayerList.parse_layer_list_string`: all layers, or all errors and no layers. */
  function Parse(s: string): (r: ParseResult)
    ensures r.errors == [] <==> r.result.Parsed?
    ensures r.result.EmptyDefault? <==> |r.errors| > 0
    ensures r.result.Parsed? ==> |r.result.list.layers| <= |s|
  {
    var sc := ScanFrom(s, 0);
    if |sc.errors| > 0 then ParseResult(EmptyDefault, sc.errors)
    else ParseResult(Parsed(LayerList(sc.layers)), [])
  }

  /** The errors come in column order, and each one is an unexpected token
      at the column it names. */
  lemma ParseErrorsAreUnexpected(s: string)
    ensures forall i, j :: 0 <= i < j < |Parse(s).errors| ==> Parse(s).errors[i].column < Parse(s).errors[j].column
    ensures forall i :: 0 <= i < |Parse(s).errors| ==> IsUnexpectedAt(s, Parse(s).errors[i])
  {
    ScanErrorsAreUnexpected(s, 0);
    ScanColumnsAscend(s, 0);
    assert AllUnexpected(s, Parse(s).errors);
  }

  /** Every error the scan reports is an unexpected token at its own column. */
  lemma {:induction false} ScanErrorsAreUnexpected(s: string, pos: nat)
    requires pos <= |s|
    ensures AllUnexpected(s, ScanFrom(s, pos).errors)
    decreases |s| - pos
  {
    if pos < |s| {
      var next := UnexpectedStep(s, pos);
      ScanErrorsAreUnexpected(s, next);
    }
  }

  predicate AllUnexpected(s: string, errors: seq<ParserError>)
  {
    forall i :: 0 <= i < |errors| ==> IsUnexpectedAt(s, errors[i])
  }

  /** One step of the scan adds at most one error, an unexpected token. */
  lemma UnexpectedStep(s: string, pos: nat) returns (next: nat)
    requires pos < |s|
    ensures pos < next <= |s|
    ensures AllUnexpected(s, ScanFrom(s, next).errors) ==> AllUnexpected(s, ScanFrom(s, pos).errors)
  {
    var m := MatchAt(s, pos);
    if m.Some? {
      next := m.value.end;
    } else {
      next := pos + 1;
      var rest := ScanFrom(s, next);
      if !IsSeparator(s[pos]) {
        var e := ParserError(UnexpectedTokenMessage(pos), pos);
        assert IsUnexpectedAt(s, e);
        assert ScanFrom(s, pos).errors == [e] + rest.errors;
        UnexpectedCons(s, e, rest.errors);
      }
    }
  }

  lemma UnexpectedCons(s: string, e: ParserError, errors: seq<ParserError>)
    requires IsUnexpectedAt(s, e)
    ensures AllUnexpected(s, errors) ==> AllUnexpected(s, [e] + errors)
  {
    if AllUnexpected(s, errors) {
      forall i | 0 <= i < |[e] + errors|
        ensures IsUnexpectedAt(s, ([e] + errors)[i])
      {
        if i > 0 {
          assert ([e] + errors)[i] == errors[i - 1];
        }
      }
    }
  }

  /** Columns at or after `lo`, strictly increasing. */
  predicate Ascending(errors: seq<ParserError>, lo: nat)
  {
    && (forall i :: 0 <= i < |errors| ==> lo <= errors[i].column)
    && (forall i, j :: 0 <= i < j < |errors| ==> errors[i].column < errors[j].column)
  }

  /** The scan reports errors left to right, never before where it starts. */
  lemma {:induction false} ScanColumnsAscend(s: string, pos: nat)
    requires pos <= |s|
    ensures Ascending(ScanFrom(s, pos).errors, pos)
    decreases |s| - pos
  {
    if pos < |s| {
      var next := AscendingStep(s, pos);
      ScanColumnsAscend(s, next);
    }
  }

  lemma AscendingStep(s: string, pos: nat) returns (next: nat)
    requires pos < |s|
    ensures pos < next <= |s|
    ensures Ascending(ScanFrom(s, next).errors, next) ==> Ascending(ScanFrom(s, pos).errors, pos)
  {
    var added;
    next, added := ScanAdds(s, pos);
    if added.Some? {
      AscendingCons(added.value, ScanFrom(s, next).errors);
    }
  }

  /** One step of the scan: the error it adds, if any, in front of the rest, at `pos`. */
  lemma ScanAdds(s: string, pos: nat) returns (next: nat, added: Option<ParserError>)
    requires pos < |s|
    ensures pos < next <= |s|
    ensures added.Some? ==> added.value.column == pos
    ensures ScanFrom(s, pos).errors
         == if added.Some? then [added.value] + ScanFrom(s, next).errors else ScanFrom(s, next).errors
  {
    var m := MatchAt(s, pos);
    if m.Some? {
      MatchStep(s, pos, m.value);
      next, added := m.value.end, None;
    } else {
      UnmatchedStep(s, pos);
      next := pos + 1;
      added := if IsSeparator(s[pos]) then None else Some(ParserError(UnexpectedTokenMessage(pos), pos));
    }
  }

  lemma AscendingCons(e: ParserError, errors: seq<ParserError>)
    ensures Ascending(errors, e.column + 1) ==> Ascending([e] + errors, e.column)
  {
    if Ascending(errors, e.column + 1) {
      forall i, j | 0 <= i < j < |[e] + errors|
        ensures ([e] + errors)[i].column < ([e] + errors)[j].column
      {
        assert ([e] + errors)[j] == errors[j - 1];
        if i > 0 {
          assert ([e] + errors)[i] == errors[i - 1];
        }
      }
    }
  }

  /** `LayerList.is_valid_layer_list_string`. */
  function IsValidLayerListString(s: string): (r: bool)
    ensures r <==> Parse(s).result.Parsed?
  {
    Parse(s).errors == []
  }

  /** `parse_layer_list_string` as the source writes it: a loop collecting
      layers and errors, then the all-or-nothing result. */
  method ParseLayerListString(s: string) returns (r: ParseResult)
    ensures r == Parse(s)
  {
    var layers, errors := ScanLoop(s, 0);
    if |errors| > 0 {
      r := ParseResult(EmptyDefault, errors);
    } else {
      r := ParseResult(Parsed(LayerList(layers)), []);
    }
  }

  /** The `while` loop calling `layer_pattern.match(s, pos)`, from `start` on. */
  method ScanLoop(s: string, start: nat) returns (layers: seq<Layer>, errors: seq<ParserError>)
    requires start <= |s|
    ensures ScanFrom(s, start) == Scan(layers, errors)
  {
    layers, errors := [], [];
    var pos: nat := start;
    assert [] + ScanFrom(s, start).layers == ScanFrom(s, start).layers;
    assert [] + ScanFrom(s, start).errors == ScanFrom(s, start).errors;
    while pos < |s|
      invariant start <= pos <= |s|
      invariant ScanFrom(s, start) == Scan(layers + ScanFrom(s, pos).layers, errors + ScanFrom(s, pos).errors)
      decreases |s| - pos
    {
      pos, layers, errors := ScanStep(s, pos, layers, errors);
    }
    assert layers + [] == layers && errors + [] == errors;
  }

  /** One scan step over a matched token: its layer, then whatever the scan
      from the token's end yields. */
  lemma MatchStep(s: string, pos: nat, m: Match)
    requires pos < |s| && MatchAt(s, pos) == Some(m)
    ensures m.end <= |s|
    ensures ScanFrom(s, pos) == Scan([LayerOf(m)] + ScanFrom(s, m.end).layers, ScanFrom(s, m.end).errors)
  {
  }

  /** One scan step where no token matches: the character is skipped if it
      is a blank or a comma and otherwise adds exactly one error, at its own
      index. */
  lemma UnmatchedStep(s: string, pos: nat)
    requires pos < |s| && MatchAt(s, pos).None?
    ensures ScanFrom(s, pos).layers == ScanFrom(s, pos + 1).layers
    ensures IsSeparator(s[pos]) ==> ScanFrom(s, pos).errors == ScanFrom(s, pos + 1).errors
    ensures !IsSeparator(s[pos]) ==>
              ScanFrom(s, pos).errors == [ParserError("Unexpected token at position " + NatToDecimal(pos), pos)]
                                         + ScanFrom(s, pos + 1).errors
  {
  }

  /** One iteration of the loop: it advances and keeps what the remaining
      scan will add unchanged. */
  method ScanStep(s: string, pos: nat, layers: seq<Layer>, errors: seq<ParserError>)
    returns (pos': nat, layers': seq<Layer>, errors': seq<ParserError>)
    requires pos < |s|
    ensures pos < pos' <= |s|
    ensures Scan(layers' + ScanFrom(s, pos').layers, errors' + ScanFrom(s, pos').errors)
         == Scan(layers + ScanFrom(s, pos).layers, errors + ScanFrom(s, pos).errors)
  {
    var m := MatchAt(s, pos);
    if m.None? {
      UnmatchedStep(s, pos);
      pos', layers' := pos + 1, layers;
      var added: seq<ParserError> := [];
      if !IsSeparator(s[pos]) {
        added := [ParserError(UnexpectedTokenMessage(pos), pos)];
      }
      errors' := errors + added;
      Regroup(errors, added, ScanFrom(s, pos').errors, ScanFrom(s, pos).errors);
    } else {
      MatchStep(s, pos, m.value);
      pos' := m.value.end;
      layers', errors' := AddToken(s, pos, m.value, layers, errors);
      Regroup(layers, [LayerOf(m.value)], ScanFrom(s, pos').layers, ScanFrom(s, pos).layers);
    }
  }

  /** Moving what one step adds from the remaining scan to the collected part. */
  lemma Regroup<T>(acc: seq<T>, added: seq<T>, rest: seq<T>, whole: seq<T>)
    requires whole == added + rest
    ensures (acc + added) + rest == acc + whole
  {
  }

  /** The loop body after a match, with its group dispatch and the
      "Invalid token" fallback: the match's layer is appended. */
  method AddToken(s: string, pos: nat, mt: Match, layers: seq<Layer>, errors: seq<ParserError>)
    returns (layers': seq<Layer>, errors': seq<ParserError>)
    requires pos <= |s| && MatchAt(s, pos) == Some(mt)
    ensures layers' == layers + [LayerOf(mt)] && errors' == errors
  {
    EveryMatchSetsOneGroup(s, pos);
    layers', errors' := layers, errors;
    var li := LayerFromGroups(GroupDict(mt));
    if li.Some? {
      layers' := layers + [li.value];
    } else {
      errors' := errors + [ParserError(InvalidTokenMessage(pos), pos)];
    }
  }

  /** Every match sets exactly one of the groups the dispatch tests
      (`layer2`, `layer1`, `name_only`), so the "Invalid token" branch is
      unreachable and the branch taken builds the match's own layer. */
  lemma EveryMatchSetsOneGroup(s: string, pos: nat)
    requires pos <= |s| && MatchAt(s, pos).Some?
    ensures var m := MatchAt(s, pos).value;
            var g := GroupDict(m);
            && (Truthy(g.layer2) <==> m.BarePair?)
            && (Truthy(g.layer1) <==> m.ParenPair?)
            && (Truthy(g.nameOnly) <==> m.NameOnly?)
    ensures var m := MatchAt(s, pos).value;
            GroupsReadable(GroupDict(m)) && LayerFromGroups(GroupDict(m)) == Some(LayerOf(m))
  {
  }
}

=== FILE: path_helpers.dfy ===
/** `strip_all_suffixes`: the file name of a path with the longest known
    layout suffix removed, or else its stem. Paths are strings with `/` as
    the separator; `pathlib` normalisation is not modelled. */
module PathHelpers {
  import opened Base

  predicate EndsWith(name: string, suffix: string)
  {
    |suffix| <= |name| && name[|name| - |suffix|..] == suffix
  }

  predicate IsPrefix(p: string, s: string)
  {
    |p| <= |s| && s[..|p|] == p
  }

  /** `str.rfind(c)`: the last index holding `c`. */
  function RFind(s: string, c: char): (r: Option<nat>)
    ensures r.Some? ==> r.value < |s| && s[r.value] == c && forall j :: r.value < j < |s| ==> s[j] != c
    ensures r.None? ==> forall j :: 0 <= j < |s| ==> s[j] != c
  {
    if |s| == 0 then None
    else if s[|s| - 1] == c then Some(|s| - 1)
    else RFind(s[..|s| - 1], c)
  }

  /** `Path(path).name`: the text after the last separator. */
  function FileName(path: string): (name: string)
    ensures EndsWith(path, name)
    ensures forall j :: 0 <= j < |name| ==> name[j] != '/'
    ensures |name| < |path| ==> path[|path| - |name| - 1] == '/'
  {
    match RFind(path, '/')
    case None => path
    case Some(i) => path[i + 1..]
  }

  /** `Path.stem`: the name without its last extension; a leading dot or a
      trailing dot does not start an extension. */
  function Stem(name: string): (r: string)
    ensures IsPrefix(r, name)
    ensures r != name ==>
              && 0 < |r| < |name| - 1 && name[|r|] == '.'
              && forall j :: |r| < j < |name| ==> name[j] != '.'
    ensures r == name ==>
              forall i :: 0 < i < |name| - 1 && name[i] == '.' ==> exists j :: i < j < |name| && name[j] == '.'
  {
    match RFind(name, '.')
    case Some(i) =>
      if 0 < i < |name| - 1 then name[..i] else name
    case None => name
  }

  /** `name[:-len(suffix)]`. For the empty suffix this is `name[:-0]`, the
      empty string. */
  function CutSuffix(name: string, suffix: string): (r: string)
    requires EndsWith(name, suffix)
    ensures suffix != "" ==> r + suffix == name
    ensures suffix == "" ==> r == ""
  {
    if |suffix| == 0 then "" else name[..|name| - |suffix|]
  }

  // ---------------------------------------------------------------------------
  // `sorted(allowed_suffixes, key=len, reverse=True)`

  predicate LongestFirst(xs: seq<string>)
  {
    forall i, j :: 0 <= i < j < |xs| ==> |xs[i]| >= |xs[j]|
  }

  /** Insert `x` after every element at least as long: the stable
      placement of `sorted`. */
  function InsertByLength(x: string, xs: seq<string>): (r: seq<string>)
    requires LongestFirst(xs)
    ensures LongestFirst(r)
    ensures multiset(r) == multiset(xs) + multiset{x}
    ensures r[0] == x || (xs != [] && r[0] == xs[0])
  {
    if xs == [] || |x| > |xs[0]| then
      ConsLongestFirst(x, xs);
      [x] + xs
    else
      var rest := InsertByLength(x, xs[1..]);
      assert xs == [xs[0]] + xs[1..];
      ConsLongestFirst(xs[0], rest);
      [xs[0]] + rest
  }

  /** A head at least as long as the first of a longest-first list keeps it
      longest-first. */
  lemma ConsLongestFirst(h: string, rest: seq<string>)
    requires LongestFirst(rest)
    requires rest != [] ==> |h| >= |rest[0]|
    ensures LongestFirst([h] + rest)
  {
    var r := [h] + rest;
    forall i, j | 0 <= i < j < |r|
      ensures |r[i]| >= |r[j]|
    {
      if i == 0 && j > 1 {
        assert |rest[0]| >= |rest[j - 1]|;
      }
    }
  }

  function SortByLengthDescending(xs: seq<string>): (r: seq<string>)
    ensures LongestFirst(r)
    ensures multiset(r) == multiset(xs)
  {
    if xs == [] then []
    else
      assert xs == xs[..|xs| - 1] + [xs[|xs| - 1]];
      InsertByLength(xs[|xs| - 1], SortByLengthDescending(xs[..|xs| - 1]))
  }

  /** The `for suffix in ...: if path.name.endswith(suffix)` search. */
  function FirstEnding(name: string, xs: seq<string>): (r: Option<nat>)
    ensures r.Some? ==> r.value < |xs| && EndsWith(name, xs[r.value])
    ensures r.Some? ==> forall j :: 0 <= j < r.value ==> !EndsWith(name, xs[j])
    ensures r.None? ==> forall j :: 0 <= j < |xs| ==> !EndsWith(name, xs[j])
  {
    if xs == [] then None
    else if EndsWith(name, xs[0]) then Some(0)
    else
      match FirstEnding(name, xs[1..])
      case None => None
      case Some(k) => Some(k + 1)
  }

  /** `strip_all_suffixes(path, allowed_suffixes)`. */
  function StripAllSuffixes(path: string, allowed: seq<string>): (r: string)
    ensures IsPrefix(r, FileName(path))
    ensures forall j :: 0 <= j < |r| ==> r[j] != '/'
  {
    var name := FileName(path);
    var sorted := SortByLengthDescending(allowed);
    match FirstEnding(name, sorted)
    case Some(k) => CutSuffix(name, sorted[k])
    case None => Stem(name)
  }

  // ---------------------------------------------------------------------------
  // What the result is, independently of the search order

  /** Two suffixes of one name with the same length are the same string. */
  lemma SameLengthSuffixes(name: string, s: string, t: string)
    requires EndsWith(name, s) && EndsWith(name, t) && |s| == |t|
    ensures s == t
  {
  }

  /** Sorting keeps exactly the allowed suffixes. */
  lemma SortedHoldsAllowed(allowed: seq<string>, t: string)
    ensures t in SortByLengthDescending(allowed) <==> t in allowed
  {
    var sorted := SortByLengthDescending(allowed);
    assert t in sorted <==> t in multiset(sorted);
    assert t in allowed <==> t in multiset(allowed);
  }

  /** In a longest-first list, the first suffix that ends the name is at
      least as long as every other one that does. */
  lemma FirstInLongestFirst(name: string, xs: seq<string>)
    requires LongestFirst(xs)
    ensures FirstEnding(name, xs).Some? ==>
              forall t :: t in xs && EndsWith(name, t) ==> |t| <= |xs[FirstEnding(name, xs).value]|
  {
    if FirstEnding(name, xs).Some? {
      var k := FirstEnding(name, xs).value;
      forall t | t in xs && EndsWith(name, t)
        ensures |t| <= |xs[k]|
      {
        var i :| 0 <= i < |xs| && xs[i] == t;
        assert i >= k;
      }
    }
  }

  /** The search over the sorted list finds a longest allowed suffix that
      ends the name, and finds none only when no allowed suffix does. */
  lemma FirstEndingIsLongest(name: string, allowed: seq<string>)
    ensures var sorted := SortByLengthDescending(allowed);
            FirstEnding(name, sorted).Some? ==>
              && sorted[FirstEnding(name, sorted).value] in allowed
              && forall t :: t in allowed && EndsWith(name, t) ==> |t| <= |sorted[FirstEnding(name, sorted).value]|
    ensures FirstEnding(name, SortByLengthDescending(allowed)).None? ==>
              forall t :: t in allowed ==> !EndsWith(name, t)
  {
    var sorted := SortByLengthDescending(allowed);
    FirstInLongestFirst(name, sorted);
    forall t | t in allowed
      ensures t in sorted
    {
      SortedHoldsAllowed(allowed, t);
    }
    if FirstEnding(name, sorted).Some? {
      SortedHoldsAllowed(allowed, sorted[FirstEnding(name, sorted).value]);
    }
  }

  /** When allowed suffixes end the file name, the longest of them is
      removed: the result followed by that suffix is the file name (the
      empty suffix instead empties it). */
  lemma StripRemovesLongest(path: string, allowed: seq<string>, s: string)
    requires s in allowed && EndsWith(FileName(path), s)
    requires forall t :: t in allowed && EndsWith(FileName(path), t) ==> |t| <= |s|
    ensures StripAllSuffixes(path, allowed) == CutSuffix(FileName(path), s)
    ensures s != "" ==> StripAllSuffixes(path, allowed) + s == FileName(path)
  {
    var name := FileName(path);
    var sorted := SortByLengthDescending(allowed);
    FirstEndingIsLongest(name, allowed);
    var k := FirstEnding(name, sorted).value;
    SameLengthSuffixes(name, s, sorted[k]);
  }

  /** With no allowed suffix ending the file name, the result is its stem. */
  lemma StripFallsBackToStem(path: string, allowed: seq<string>)
    requires forall t :: t in allowed ==> !EndsWith(FileName(path), t)
    ensures StripAllSuffixes(path, allowed) == Stem(FileName(path))
  {
    FirstEndingIsLongest(FileName(path), allowed);
  }

  /** An empty allowed suffix ends every name, so when no longer one
      matches the result is `name[:-0]`, the empty string, and the stem
      fallback is never reached. */
  lemma EmptySuffixEmptiesName(path: string, allowed: seq<string>)
    requires "" in allowed
    requires forall t :: t in allowed && t != "" ==> !EndsWith(FileName(path), t)
    ensures StripAllSuffixes(path, allowed) == ""
  {
    StripRemovesLongest(path, allowed, "");
  }

  /** The order of `allowed_suffixes` does not matter, nor do repeats. */
  lemma StripIgnoresOrder(path: string, a: seq<string>, b: seq<string>)
    requires forall t :: t in a <==> t in b
    ensures StripAllSuffixes(path, a) == StripAllSuffixes(path, b)
  {
    var name := FileName(path);
    FirstEndingIsLongest(name, a);
    var sortedA := SortByLengthDescending(a);
    if FirstEnding(name, sortedA).Some? {
      var s := sortedA[FirstEnding(name, sortedA).value];
      StripRemovesLongest(path, a, s);
      StripRemovesLongest(path, b, s);
    } else {
      StripFallsBackToStem(path, a);
      StripFallsBackToStem(path, b);
    }
  }

  /** The example the function exists for: `Path.stem` would keep `.gds`. */
  lemma LayoutGdsGz(path: string, allowed: seq<string>)
    requires path == "designs/layout.gds.gz" && allowed == [".gds", ".gds.gz"]
    ensures Stem(FileName(path)) == "layout.gds"
    ensures StripAllSuffixes(path, allowed) == "layout"
  {
    GdsGzText(path);
    var name := FileName(path);
    forall t | t in allowed && EndsWith(name, t)
      ensures |t| <= |".gds.gz"|
    {
    }
    StripRemovesLongest(path, allowed, ".gds.gz");
  }

  lemma GdsGzText(path: string)
    requires path == "designs/layout.gds.gz"
    ensures FileName(path) == "layout.gds.gz"
    ensures EndsWith(FileName(path), ".gds.gz")
    ensures Stem(FileName(path)) == "layout.gds"
  {
    assert path[7] == '/' && forall j :: 7 < j < |path| ==> path[j] != '/';
    var name := path[8..];
    assert name == "layout.gds.gz";
    assert name[|name| - 7..] == ".gds.gz";
    assert name[10] == '.' && forall j :: 10 < j < |name| ==> name[j] != '.';
  }
}

=== FILE: selection_filter.dfy ===
/** `SelectionFilterOptions`: an `IntFlag` of nine selection flags, the
    predicates that ask which objects a flag combination selects, the table
    of selection-menu entries, and the fold that collects the checked
    entries. A combination is modelled as the set of flags it holds; `ToBits`
    gives its integer, and the lemmas below show that the integer tests of
    `IntFlag` are the set operations used here. */
module SelectionFilter {

  datatype Flag =
    | RulersAndAnnotations
    | Images
    | Polygons
    | Boxes
    | Texts
    | Paths
    | Points
    | Instances
    | PartialShapes

  /** The kinds a `pya.Shape` reports through its `is_...` tests. */
  datatype ShapeKind =
    | Point | Box | PathShape | SimplePolygon | Polygon | Text | UserObject
    | Edge | EdgePair | Null

  /** `NONE = 0`: the empty combination. */
  const NONE: set<Flag> := {}

  /** Every bit some flag can set. */
  const FlagBits: bv16 := 0x1FF

  /** The position of a flag in the declaration. */
  function Index(f: Flag): nat
  {
    match f
    case RulersAndAnnotations => 0
    case Images => 1
    case Polygons => 2
    case Boxes => 3
    case Texts => 4
    case Paths => 5
    case Points => 6
    case Instances => 7
    case PartialShapes => 8
  }

  function Pow2(n: nat): nat
  {
    if n == 0 then 1 else 2 * Pow2(n - 1)
  }

  /** The `auto()` value of a flag. */
  function Value(f: Flag): bv16
  {
    match f
    case RulersAndAnnotations => 1
    case Images => 2
    case Polygons => 4
    case Boxes => 8
    case Texts => 16
    case Paths => 32
    case Points => 64
    case Instances => 128
    case PartialShapes => 256
  }

  /** `auto()` numbers the flags with successive powers of two from 1, and
      distinct flags own distinct bits. */
  lemma ValuesArePowersOfTwo(f: Flag, g: Flag)
    ensures Value(f) as nat == Pow2(Index(f))
    ensures Value(f) & Value(g) != 0 <==> f == g
  {
    assert Pow2(0) == 1 && Pow2(1) == 2 && Pow2(2) == 4 && Pow2(3) == 8 && Pow2(4) == 16;
    assert Pow2(5) == 32 && Pow2(6) == 64 && Pow2(7) == 128 && Pow2(8) == 256;
  }

  // ---------------------------------------------------------------------------
  // The integer of a combination

  /** The value of `f` if the combination holds it, else 0. */
  function Bit(s: set<Flag>, f: Flag): (v: bv16)
    ensures v & Value(f) == v
  {
    if f in s then Value(f) else 0
  }

  /** The integer of a combination: the `|` of its flags' values. */
  function ToBits(s: set<Flag>): bv16
  {
    Bit(s, RulersAndAnnotations) | Bit(s, Images) | Bit(s, Polygons)
    | Bit(s, Boxes) | Bit(s, Texts) | Bit(s, Paths)
    | Bit(s, Points) | Bit(s, Instances) | Bit(s, PartialShapes)
  }

  /** `f in self`, the `IntFlag` membership test on integers. */
  predicate Has(bits: bv16, f: Flag)
  {
    bits & Value(f) == Value(f)
  }

  /** The integer of a combination holds exactly its flags. */
  lemma ToBitsHas(s: set<Flag>, f: Flag)
    ensures Has(ToBits(s), f) <==> f in s
  {
  }

  /** Different combinations have different integers; `NONE` is 0. */
  lemma ToBitsInjective(a: set<Flag>, b: set<Flag>)
    ensures ToBits(a) == ToBits(b) <==> a == b
    ensures ToBits(NONE) == 0
  {
    if ToBits(a) == ToBits(b) {
      forall f | true
        ensures f in a <==> f in b
      {
        ToBitsHas(a, f);
        ToBitsHas(b, f);
      }
    }
  }

  /** Regrouping nine `|`-joined pairs. */
  lemma OrRegroup(x0: bv16, x1: bv16, x2: bv16, x3: bv16, x4: bv16, x5: bv16, x6: bv16, x7: bv16, x8: bv16,
                  y0: bv16, y1: bv16, y2: bv16, y3: bv16, y4: bv16, y5: bv16, y6: bv16, y7: bv16, y8: bv16)
    ensures (x0 | y0) | (x1 | y1) | (x2 | y2) | (x3 | y3) | (x4 | y4)
            | (x5 | y5) | (x6 | y6) | (x7 | y7) | (x8 | y8)
            == (x0 | x1 | x2 | x3 | x4 | x5 | x6 | x7 | x8) | (y0 | y1 | y2 | y3 | y4 | y5 | y6 | y7 | y8)
  {
  }

  /** `|` on integers is union of combinations. */
  lemma OrIsUnion(a: set<Flag>, b: set<Flag>)
    ensures ToBits(a + b) == ToBits(a) | ToBits(b)
  {
    OrRegroup(Bit(a, RulersAndAnnotations), Bit(a, Images), Bit(a, Polygons),
              Bit(a, Boxes), Bit(a, Texts), Bit(a, Paths),
              Bit(a, Points), Bit(a, Instances), Bit(a, PartialShapes),
              Bit(b, RulersAndAnnotations), Bit(b, Images), Bit(b, Polygons),
              Bit(b, Boxes), Bit(b, Texts), Bit(b, Paths),
              Bit(b, Points), Bit(b, Instances), Bit(b, PartialShapes));
  }

  /** A flag both integers hold is a shared flag bit. */
  lemma SharedFlagBit(x: bv16, y: bv16, f: Flag)
    requires Has(x, f) && Has(y, f)
    ensures x & y & FlagBits != 0
  {
  }

  /** A shared flag bit is a flag both integers hold. */
  lemma CommonFlag(x: bv16, y: bv16) returns (f: Flag)
    requires x & y & FlagBits != 0
    ensures Has(x, f) && Has(y, f)
  {
    var z := x & y;
    if z & 1 != 0 { f := RulersAndAnnotations; }
    else if z & 2 != 0 { f := Images; }
    else if z & 4 != 0 { f := Polygons; }
    else if z & 8 != 0 { f := Boxes; }
    else if z & 16 != 0 { f := Texts; }
    else if z & 32 != 0 { f := Paths; }
    else if z & 64 != 0 { f := Points; }
    else if z & 128 != 0 { f := Instances; }
    else { f := PartialShapes; }
  }

  /** The integer of a combination sets no bit outside the flags. */
  lemma ToBitsWithinFlags(s: set<Flag>)
    ensures ToBits(s) & FlagBits == ToBits(s)
  {
  }

  /** So `bool(x & y)` asks whether two combinations meet. */
  lemma AndNonZeroIsMeet(a: set<Flag>, b: set<Flag>)
    ensures ToBits(a) & ToBits(b) != 0 <==> a * b != {}
  {
    var x, y := ToBits(a), ToBits(b);
    ToBitsWithinFlags(a);
    assert x & y & FlagBits == x & y;
    if x & y != 0 {
      var f := CommonFlag(x, y);
      ToBitsHas(a, f);
      ToBitsHas(b, f);
      assert f in a * b;
    }
    if a * b != {} {
      var f :| f in a * b;
      ToBitsHas(a, f);
      ToBitsHas(b, f);
      SharedFlagBit(x, y, f);
    }
  }

  // ---------------------------------------------------------------------------
  // Queries

  /** `include_instances`. */
  function IncludeInstances(o: set<Flag>): (r: bool)
    ensures r <==> Has(ToBits(o), Instances)
  {
    ToBitsHas(o, Instances);
    Instances in o
  }

  /** The flags that select shapes in general. */
  const ShapeFlags: set<Flag> := {Polygons, Boxes, Paths, Points, PartialShapes}

  /** `include_shapes`: `bool(self & shape_flags)`. */
  function IncludeShapes(o: set<Flag>): (r: bool)
    ensures r <==> ToBits(o) & ToBits(ShapeFlags) != 0
  {
    AndNonZeroIsMeet(o, ShapeFlags);
    o * ShapeFlags != {}
  }

  /** `include_shape`: the `is_...` chain over the shape kinds. */
  function IncludeShape(o: set<Flag>, kind: ShapeKind): (r: bool)
    ensures r ==> kind != Edge && kind != EdgePair && kind != Null
    ensures r ==> o != NONE
  {
    if kind == Point then Points in o
    else if kind == Box then Boxes in o
    else if kind == PathShape then Paths in o
    else if kind == SimplePolygon then Polygons in o
    else if kind == Polygon then Polygons in o
    else if kind == Text then Texts in o
    else if kind == UserObject then PartialShapes in o
    else if kind == Edge then false
    else if kind == EdgePair then false
    else if kind == Null then false
    else false
  }

  /** Edges, edge pairs and null shapes are never selected, whatever the
      flags. */
  lemma EdgesNeverIncluded(o: set<Flag>)
    ensures !IncludeShape(o, Edge) && !IncludeShape(o, EdgePair) && !IncludeShape(o, Null)
  {
  }

  /** Each selectable kind needs its own flag: simple and general polygons
      share `POLYGONS`, user objects need `PARTIAL_SHAPES`. */
  lemma EachKindNeedsItsFlag(o: set<Flag>)
    ensures IncludeShape(o, Point) <==> Points in o
    ensures IncludeShape(o, Box) <==> Boxes in o
    ensures IncludeShape(o, PathShape) <==> Paths in o
    ensures IncludeShape(o, SimplePolygon) <==> Polygons in o
    ensures IncludeShape(o, Polygon) <==> Polygons in o
    ensures IncludeShape(o, Text) <==> Texts in o
    ensures IncludeShape(o, UserObject) <==> PartialShapes in o
  {
  }

  /** `include_shapes` holds exactly when some non-text kind of shape is
      selected; texts alone do not count. */
  lemma ShapesMeansSomeNonTextShape(o: set<Flag>)
    ensures IncludeShapes(o) <==> exists kind :: kind != Text && IncludeShape(o, kind)
    ensures IncludeShape({Texts}, Text) && !IncludeShapes({Texts})
  {
    if IncludeShapes(o) {
      var f :| f in o * ShapeFlags;
      var kind := if f == Polygons then Polygon else if f == Boxes then Box
                  else if f == Paths then PathShape else if f == Points then Point else UserObject;
      assert IncludeShape(o, kind);
    }
    assert {Texts} * ShapeFlags == {};
  }

  /** Setting more flags never turns a selection off. */
  lemma QueriesMonotone(a: set<Flag>, b: set<Flag>, kind: ShapeKind)
    requires a <= b
    ensures IncludeInstances(a) ==> IncludeInstances(b)
    ensures IncludeShapes(a) ==> IncludeShapes(b)
    ensures IncludeShape(a, kind) ==> IncludeShape(b, kind)
  {
    if IncludeShapes(a) {
      var f :| f in a * ShapeFlags;
      assert f in b * ShapeFlags;
    }
  }

  /** `NONE` selects nothing. */
  lemma NoneSelectsNothing(kind: ShapeKind)
    ensures !IncludeInstances(NONE) && !IncludeShapes(NONE) && !IncludeShape(NONE, kind)
  {
  }

  // ---------------------------------------------------------------------------
  // The selection menu

  /** An entry of the menu table: `pi_enable_<number>` and its flag. */
  datatype MenuEntry = MenuEntry(number: string, flag: Flag)

  const MenuPrefix: string := "edit_menu.select_menu.pi_enable_"

  function Path(e: MenuEntry): string
  {
    MenuPrefix + e.number
  }

  /** `option_by_menu_path` in its insertion order, which `items()` keeps. */
  const MenuTable: seq<MenuEntry> := [
    MenuEntry("15", RulersAndAnnotations),
    MenuEntry("16", Images),
    MenuEntry("17", Polygons),
    MenuEntry("18", Boxes),
    MenuEntry("19", Texts),
    MenuEntry("20", Paths),
    MenuEntry("21", Points),
    MenuEntry("22", Instances),
    MenuEntry("24", PartialShapes)
  ]

  /** `option_by_menu_path()`: each menu path with its flag. */
  function OptionByMenuPath(): (m: map<string, Flag>)
    ensures forall i :: 0 <= i < |MenuTable| ==> Path(MenuTable[i]) in m && m[Path(MenuTable[i])] == MenuTable[i].flag
    ensures forall p :: p in m ==> exists i :: 0 <= i < |MenuTable| && Path(MenuTable[i]) == p
  {
    MenuPathsDistinct();
    map i | 0 <= i < |MenuTable| :: Path(MenuTable[i]) := MenuTable[i].flag
  }

  /** The table has nine entries; entry `i` holds the flag declared
      `i`-th, so the flags are distinct and each has an entry. */
  lemma MenuTableFlags()
    ensures |MenuTable| == 9
    ensures forall f :: Index(f) < |MenuTable| && MenuTable[Index(f)].flag == f
    ensures forall i :: 0 <= i < |MenuTable| ==> Index(MenuTable[i].flag) == i
  {
  }

  /** Distinct entries have distinct paths. */
  lemma MenuTablePathsDistinct(i: nat, j: nat)
    requires i < j < |MenuTable|
    ensures Path(MenuTable[i]) != Path(MenuTable[j])
  {
    assert Path(MenuTable[i])[|MenuPrefix|..] == MenuTable[i].number;
    assert Path(MenuTable[j])[|MenuPrefix|..] == MenuTable[j].number;
  }

  /** No two entries of the table share a path. */
  lemma MenuPathsDistinct()
    ensures forall i, j :: 0 <= i < j < |MenuTable| ==> Path(MenuTable[i]) != Path(MenuTable[j])
  {
    forall i, j | 0 <= i < j < |MenuTable|
      ensures Path(MenuTable[i]) != Path(MenuTable[j])
    {
      MenuTablePathsDistinct(i, j);
    }
  }

  /** The path of a flag's menu entry. */
  function FlagPath(f: Flag): string
  {
    MenuTableFlags();
    Path(MenuTable[Index(f)])
  }

  /** Different paths of `option_by_menu_path()` give different flags. */
  lemma MenuMapInjective(p: string, q: string)
    requires p in OptionByMenuPath() && q in OptionByMenuPath()
    requires OptionByMenuPath()[p] == OptionByMenuPath()[q]
    ensures p == q
  {
    MenuTableFlags();
    var m := OptionByMenuPath();
    var i :| 0 <= i < |MenuTable| && Path(MenuTable[i]) == p;
    var j :| 0 <= j < |MenuTable| && Path(MenuTable[j]) == q;
    assert Index(m[p]) == i && Index(m[q]) == j;
  }

  /** Every flag has a path in `option_by_menu_path()`. */
  lemma MenuMapCoversFlags(f: Flag)
    ensures FlagPath(f) in OptionByMenuPath() && OptionByMenuPath()[FlagPath(f)] == f
  {
    MenuTableFlags();
  }

  /** The flags whose entry, among the first `n` of the table, is checked. */
  function CheckedAmong(checked: set<string>, n: nat): set<Flag>
    requires n <= |MenuTable|
  {
    set k | 0 <= k < n && Path(MenuTable[k]) in checked :: MenuTable[k].flag
  }

  /** The flags whose menu entry is among the checked paths. */
  function CheckedFlags(checked: set<string>): set<Flag>
  {
    CheckedAmong(checked, |MenuTable|)
  }

  lemma CheckedAmongStep(checked: set<string>, n: nat)
    requires n < |MenuTable|
    ensures CheckedAmong(checked, n + 1) ==
              CheckedAmong(checked, n) + (if Path(MenuTable[n]) in checked then {MenuTable[n].flag} else {})
  {
    var added := if Path(MenuTable[n]) in checked then {MenuTable[n].flag} else {};
    forall f | f in CheckedAmong(checked, n + 1)
      ensures f in CheckedAmong(checked, n) + added
    {
      var k :| 0 <= k < n + 1 && Path(MenuTable[k]) in checked && MenuTable[k].flag == f;
      if k < n {
        assert f in CheckedAmong(checked, n);
      }
    }
  }

  /** `from_ui`, with the state of the main window's menu given as the set
      of menu paths whose action is checked: `|=` over the entries in table
      order. The result holds a flag exactly when its entry is checked, and
      is `NONE` when none is. */
  method FromUi(checked: set<string>) returns (options: set<Flag>)
    ensures forall f :: f in options <==> exists p :: p in OptionByMenuPath() && p in checked && OptionByMenuPath()[p] == f
    ensures options == NONE <==> forall p :: p in OptionByMenuPath() ==> p !in checked
  {
    options := NONE;
    var i := 0;
    while i < |MenuTable|
      invariant i <= |MenuTable|
      invariant options == CheckedAmong(checked, i)
    {
      CheckedAmongStep(checked, i);
      if Path(MenuTable[i]) in checked {
        options := options + {MenuTable[i].flag};
      }
      i := i + 1;
    }
    CheckedFlagsByPath(checked);
  }

  /** The checked flags, read through the map of `option_by_menu_path()`. */
  lemma CheckedFlagsByPath(checked: set<string>)
    ensures forall f :: f in CheckedFlags(checked) <==> exists p :: p in OptionByMenuPath() && p in checked && OptionByMenuPath()[p] == f
    ensures CheckedFlags(checked) == NONE <==> forall p :: p in OptionByMenuPath() ==> p !in checked
  {
    var m := OptionByMenuPath();
    forall f
      ensures f in CheckedFlags(checked) <==> exists p :: p in m && p in checked && m[p] == f
    {
      if f in CheckedFlags(checked) {
        var k :| 0 <= k < |MenuTable| && Path(MenuTable[k]) in checked && MenuTable[k].flag == f;
        assert m[Path(MenuTable[k])] == f;
      }
      if exists p :: p in m && p in checked && m[p] == f {
        var p :| p in m && p in checked && m[p] == f;
        var k :| 0 <= k < |MenuTable| && Path(MenuTable[k]) == p;
        assert f in CheckedFlags(checked);
      }
    }
    if exists p :: p in m && p in checked {
      var p :| p in m && p in checked;
      assert m[p] in CheckedFlags(checked);
    }
  }

  /** The integer `from_ui` returns holds exactly the checked flags, and is
      0 when none is checked. */
  method FromUiBits(checked: set<string>) returns (bits: bv16)
    ensures forall f :: Has(bits, f) <==> f in CheckedFlags(checked)
    ensures bits == 0 <==> CheckedFlags(checked) == NONE
  {
    var options := FromUi(checked);
    CheckedFlagsByPath(checked);
    assert options == CheckedFlags(checked);
    bits := ToBits(options);
    forall f
      ensures Has(bits, f) <==> f in CheckedFlags(checked)
    {
      ToBitsHas(options, f);
    }
    ToBitsInjective(options, NONE);
  }
}
